=== FILE: README.md ===
# Chess rules core

A Dafny model of the rules core of a browser chess game. The model covers:

- the move generators of the six piece types;
- the set of squares the enemy is taken to cover, which filters the King's steps;
- the castling pseudo-moves;
- the board object: opening placement, position caching, and move execution with promotion, castling, the king-moved flags and the turn change;
- the game record and its turn change;
- the cell-code, emptiness and move-membership utilities;
- the earlier single-file version of the game (script.js), in which only the pawn moves. Its emptiness test, membership scan, set-up and position caching (script.js:15-29, 143-194, 232-242) are the same code as the modular ones, so the `Utils` and `BoardOps` members cover them.

The board is an immutable 8x8 `seq<seq<Cell>>`. A cell is `Undef`, `Null` or `Occupied(piece)`. The program tells a never-written slot (`undefined`) apart from a vacated one (`null`), and castling looks at that difference. Every generator is a pure function returning an ordered `seq<(row, col)>`. `movePiece` is a pure function from a game to an `Outcome`: the game it leaves and whether it threw. The board and game singletons become explicit parameters.

Modules, one per source file:

- `ChessTypes` (chess_types.dfy): colours, kinds, pieces with their cached position, cells, the board, `Read` and `Put`.
- `Utils` (utils.dfy): src/utils.js.
- `GameState` (game.dfy): src/game.js.
- `Pieces` (pieces.dfy): src/pieces.js.
- `BoardOps` (board.dfy): the board object in src/index.js.
- `Legacy` (legacy.dfy): script.js.

Quirks of the program that the model keeps:

- Only the first threat of each enemy non-King piece enters the coverage set. The code spreads the threat list into `Set.add`, which takes one argument.
- The pawn's right-diagonal guard is `>= 0`, so a pawn on column 7 reports a threat on column 8.
- Castling requires the squares between King and Rook to be strictly `null`.
- Moving a piece onto its own square erases it.
- In script.js a pawn is never promoted. Once it reaches its far row, asking it for moves reads the missing row beyond and throws a TypeError (script.js:60).
- The redraw after a relocation reads the colour of whatever landed on the target (src/index.js:125, 254-256). When an empty cell lands there, the call throws a TypeError. The board keeps the relocation, and the king-moved flag, the castling sub-move and the turn change are skipped. An empty landing happens when moving from an empty square, when moving onto the same square, and when a two-column King move finds nothing on the corner square. The same skip applies to the calling move when a castling sub-move throws. `MovePiece` returns this as an `Outcome` with a `threw` flag.

## Model

| member | source | states |
|---|---|---|
| ChessTypes.Read | src/index.js:105-107 | `getPiece`: a square on the board reads its cell; a column off the board reads as `undefined` |
| Utils.CellCode | src/utils.js:1-4 | the code is two characters: the file letter a-h of the column, then the digit 8 - row |
| Utils.CellCodeRoundTrip | src/utils.js:1-4 | parsing the code of an on-board square gives the square back |
| Utils.ParseCellCodeRoundTrip | src/utils.js:1-4 | every well-formed code is the code of the square it parses to |
| Utils.CellCodeInjective | src/utils.js:1-4 | distinct on-board squares get distinct codes |
| Utils.CellCodeCorners | src/utils.js:1-4 | (7,4) is "e1", (0,0) is "a8", (7,0) is "a1", (0,7) is "h8" |
| Utils.CellIsEmpty | src/utils.js:6-8 | a cell is empty exactly when it holds no piece, i.e. it is `null` or `undefined` |
| Utils.PositionIsInPossibleMoves | src/utils.js:20-30 | true exactly when some list element matches both coordinates; false for an empty list |
| Utils.PossibleMovesMonotone | src/utils.js:20-30 | a position found in a list is still found once the list is extended |
| GameState.NewGame | src/game.js:31-41 | a new game has White to move, both king-moved flags false, and no check, checkmate or stalemate |
| GameState.ChangeTurn | src/game.js:43-51 | the turn goes to the other colour and no other modelled field changes |
| GameState.ChangeTurnTwice | src/game.js:43-48 | two turn changes restore the game |
| GameState.SetKingMoved | src/index.js:162-167 | raises the flag of the given side only; board, turn and statuses stay |
| Pieces.PawnAdvances | src/pieces.js:64-81 | one step ahead iff that square is empty; two steps iff on row 6 (White) or 1 (Black) with both squares ahead empty; nothing else |
| Pieces.Diagonal | src/pieces.js:84-102 | a diagonal is emitted exactly when it is on the board and holds an enemy non-King piece |
| Pieces.PawnCaptures | src/pieces.js:84-102 | the left diagonal iff column >= 1 and it holds an enemy non-King; likewise the right one up to column 7; only those squares |
| Pieces.PawnMoves | src/pieces.js:60-105 | every move is on the board and empty or capturable; each of the four candidate squares appears under exactly its condition; direction -1 for White, +1 for Black |
| Pieces.PawnTakingMoves | src/pieces.js:107-123 | both diagonals ahead whatever they hold: the left one iff column >= 1, the right one always, left first |
| Pieces.PawnCapturesAreThreats | src/pieces.js:84-123 | every diagonal move a pawn makes is among its threats |
| Pieces.Keep | src/pieces.js:146-157 | the filter of a candidate list keeps exactly the on-board, enterable, not-avoided squares, in their original order |
| Pieces.KnightTargets | src/pieces.js:135-144 | the jump table reaches exactly the squares two away one way and one away the other |
| Pieces.KnightMoves | src/pieces.js:132-159 | a square is a knight move iff it is a knight's leap away, on the board, and empty or an enemy non-King; moves keep the jump-table order |
| Pieces.Ray | src/pieces.js:184-199 | the loop of one direction (bishop; the rook's 227-242 and the queen's 274-289 are the same loop): every square it emits is on the board |
| Pieces.RayCells | src/pieces.js:179-199 | every square of a ray but the last is empty, and the last is empty or an enemy non-King |
| Pieces.RayStartsAtProbe | src/pieces.js:181-182 | a non-empty ray starts at the square next to the piece |
| Pieces.RayIsStraight | src/pieces.js:196-197 | each square of a ray is the previous one moved by the direction |
| Pieces.RayStopsAtFirstObstacle | src/pieces.js:184-195 | a ray ends at a capture, at the edge, or just before an own piece or any King, never earlier |
| Pieces.RayIsAlong | src/pieces.js:179-199 | every square of a ray lies on the half-line from its start in its direction |
| Pieces.SlideIsAlong | src/pieces.js:179-199 | every square a slider reaches lies beyond it along one of its directions |
| Pieces.Slide | src/pieces.js:179-199 | the `directions.forEach` of a slider: every emitted square is on the board and empty or an enemy non-King |
| Pieces.SlideConcat | src/pieces.js:179-199 | the moves for a list of directions are the moves for each part of the list, concatenated |
| Pieces.BishopMoves | src/pieces.js:169-202 | every bishop move is on the board and empty or an enemy non-King |
| Pieces.BishopMovesAreDiagonal | src/pieces.js:172-177 | every bishop move is on a diagonal through the bishop, off its own square |
| Pieces.RookMoves | src/pieces.js:212-245 | every rook move is on the board and empty or an enemy non-King |
| Pieces.RookMovesAreStraight | src/pieces.js:215-220 | every rook move shares the rook's row or column, off its own square |
| Pieces.QueenMoves | src/pieces.js:255-292 | every queen move is on the board and empty or an enemy non-King |
| Pieces.QueenIsBishopThenRook | src/pieces.js:258-267 | the queen's list is the bishop's list followed by the rook's list from the same square |
| Pieces.QueenMovesAreDiagonalOrStraight | src/pieces.js:258-267 | every queen move is on a diagonal, row or column through the queen |
| Pieces.Threats | src/pieces.js:28 | the `takingMoves` the scan calls: a pawn's threats lie on the row ahead of it; every other piece's are on the board and empty or an enemy non-King |
| Pieces.FirstThreats | src/pieces.js:26-29 | a cell contributes a square iff it holds an enemy non-King piece with a non-empty threat list, and then it contributes that list's first square |
| Pieces.ScanRow | src/pieces.js:25-30 | the inner loop collects exactly the contributions of the rest of the row |
| Pieces.ScanRows | src/pieces.js:23-31 | the outer loop collects exactly the contributions of the remaining rows |
| Pieces.Covered | src/pieces.js:20-34 | a square is covered iff some cell of the board contributes it |
| Pieces.CoveredIsFirstThreats | src/pieces.js:20-34 | a square is covered iff it is the first threat of some enemy non-King piece |
| Pieces.SecondThreatIsMissed | src/pieces.js:28 | with a single enemy non-King piece, its second threat is not covered unless it equals the first |
| Pieces.PawnThreats | src/pieces.js:107-123 | a pawn's threats in the coverage scan are its diagonals ahead, as `takingMoves` lists them, independent of the board |
| Pieces.PawnRightThreatIsMissed | src/pieces.js:20-34 | with a lone enemy pawn off the a-file, its left diagonal ahead is covered and its right diagonal is not |
| Pieces.NoEnemiesNoCoverage | src/pieces.js:27 | without enemy non-King pieces nothing is covered: own pieces and Kings contribute nothing |
| Pieces.KingStepTargets | src/pieces.js:305-314 | the step table reaches exactly the eight neighbours |
| Pieces.KingStepMoves | src/pieces.js:316-333 | a King step goes to a neighbour iff it is on the board, not covered, and empty or an enemy non-King; steps keep the table order |
| Pieces.CastlingMoves | src/pieces.js:335-390 | (home,2) iff King on (home,4), flag down, own Rook on column 0, columns 1-3 `null`; (home,6) iff the same with the Rook on column 7 and columns 5-6 `null`; queenside first |
| Pieces.CastlingTestsEmptiness | src/pieces.js:347-349 | on back ranks without `undefined` cells the strict `null` test equals the emptiness test |
| Pieces.UndefinedSquareBlocksCastling | src/pieces.js:347-349 | a never-written square between King and Rook blocks castling although it is empty |
| Pieces.KingMoves | src/pieces.js:302-393 | every King move is on the board and empty or an enemy non-King; each one is an uncovered neighbour or a castling pseudo-move; every enterable uncovered neighbour step and every castling pseudo-move is among them; the steps come first, in table order |
| Pieces.CastlingIgnoresCoverage | src/pieces.js:335-362 | queenside castling is offered whatever squares the enemy covers, the King's own and its path included |
| Pieces.PossibleMoves | src/pieces.js:45-47 | for any piece, no move is off the board, onto an own piece, or onto a King |
| Pieces.TakingMoves | src/pieces.js:49-51 | the threats of every piece but a pawn are on the board and empty or an enemy non-King |
| Pieces.ThreatsAreTakingMoves | src/pieces.js:28 | the coverage scan uses each piece's `takingMoves` |
| Pieces.TakingMovesDefault | src/pieces.js:49-51 | for every piece but the pawn, `takingMoves` equals `possibleMoves` |
| BoardOps.PlaceBoth | src/index.js:68-96 | a kind is placed on rows 7 (White) and 0 (Black) at the listed columns; every other square is untouched |
| BoardOps.PlacePawns | src/index.js:54-66 | pawns fill rows 6 (White) and 1 (Black); every other square stays `undefined` |
| BoardOps.PlaceBackRanks | src/index.js:68-102 | rows 7 and 0 read R N B Q K B N R; rows 1 to 6 are untouched |
| BoardOps.NewBoard | src/index.js:52-103 | the standard opening: pawns on rows 6 and 1, back ranks R N B Q K B N R, rows 2-5 `undefined` |
| BoardOps.CachePiecesPositions | src/index.js:190-200 | afterwards every piece's position is its square, nothing else changed, and a synced board is left as it was |
| BoardOps.StartingBoard | src/index.js:203-204 | the board at creation is synced, has no pawn on rows 0 and 7, no `undefined` back-rank cell, and the opening layout |
| BoardOps.Arrival | src/index.js:144-155 | the arriving piece keeps its colour and takes its new square; a pawn on row 0 or 7 becomes a Queen |
| BoardOps.Relocate | src/index.js:141-155 | the target gets the arriving piece, the source becomes `null`, nothing else changes; from = to leaves `null` |
| BoardOps.MovePiece | src/index.js:134-177 | the turn flips exactly when `changeTurn` is set and nothing threw, so at most once per top-level move; a move from an empty square or onto its own square throws; a move of a non-King piece never throws; king-moved flags are never lowered; statuses unchanged |
| BoardOps.Drop | src/index.js:335-344 | dropping on the origin square changes nothing; any other drop flips the turn unless it threw; a drop from an empty square throws and keeps the turn; a drop of a non-King piece flips it |
| BoardOps.MoveKeepsSynced | src/index.js:141-173 | a move keeps every piece's position equal to its square |
| BoardOps.MoveKeepsPawnsOffEdges | src/index.js:144-150 | after a move no pawn stands on row 0 or 7 if none stood there before |
| BoardOps.MoveKeepsBackRanksDefined | src/index.js:141-142 | a move creates no `undefined` back-rank cell unless it moves an `undefined` cell onto a back rank |
| BoardOps.PlainMove | src/index.js:141-155 | a move of a non-King piece does not throw; it nulls the source, puts the arriving piece on the target, and changes no other square and no flag |
| BoardOps.Promotion | src/index.js:144-150 | a pawn reaching row 0 or 7 becomes a Queen of its colour on the target |
| BoardOps.MoveErasesOnSameSquare | src/index.js:125-142 | a move from a square to itself leaves that square `null`, changes no other square, throws, and keeps the turn |
| BoardOps.MoveFromEmptySquare | src/index.js:125-155 | a move from an empty square copies the emptiness onto the target and nulls the source; it throws, so the turn and flags stay |
| BoardOps.CastlingOntoEmptyCornerThrows | src/index.js:125-177 | King 4 to 6 with nothing on column 7 of the target row: the King moves and its flag is raised, the sub-move throws, and the turn stays |
| BoardOps.KingMoveRaisesFlag | src/index.js:159-167 | any move of a King off its square raises its colour's king-moved flag, castling or not, thrown or not |
| BoardOps.KingStep | src/index.js:160-167 | a King move without a two-column shift moves only the King and raises its side's flag |
| BoardOps.CastleKingside | src/index.js:168-169 | King 4 to 6 also moves column 7 to column 5; only those squares of that row change; no throw; flag raised; turn flips exactly when asked |
| BoardOps.CastleQueenside | src/index.js:170-171 | King 4 to 2 also moves column 0 to column 3; column 1 and the rest of the board stay; no throw; flag raised; turn flips exactly when asked |
| Legacy.PawnMoves | script.js:51-95 | the single-file pawn generator throws exactly when the pawn has no row ahead (it reads that missing row at script.js:60); otherwise it yields exactly the modular pawn moves |
| Legacy.PossibleMoves | script.js:40-42 | only pawns generate moves, throwing on their far row; every other piece yields the empty list and never throws |
| Legacy.MovePiece | script.js:221-230 | the target gets the source piece with its new square, the source is `null`, nothing else changes |
| Legacy.MoveAgreesWithModular | script.js:221-230 | without a King or a promotion both versions leave the same board |
| Legacy.NoPromotion | script.js:221-230 | a pawn reaching the last row stays a pawn |
| Legacy.PawnReachesFarRow | script.js:221-230 | a White pawn capturing from row 1 onto row 0 stands there as a pawn with no row ahead, so its move generator then throws |
| Legacy.CellCode | script.js:248-251 | the single-file cell code equals the modular one |

## Left out

- Rendering, indicators, images, sound, and the drag listeners other than the drop listener (which `Drop` models). They are presentation and change no modelled state. The exception is the redraw's read of the landed piece's colour (src/index.js:125), whose TypeError is modelled. `emitPieceSound` is taken to return normally.
- Check detection and game end (src/index.js:179-187). `getKing`, `isCheck`, `isCheckmate`, `endGame` and `showCheckMessage` are not defined in src/game.js. `MovePiece`, `CastleKingside` and `CastleQueenside` assume these calls return normally and change no modelled field. If `game.getKing` really is missing, every call throws at line 180 after its turn change. A castling sub-move would then throw before the calling move's turn change, so castling would never flip the turn.
- The `FREE_MOVE` switch (src/index.js:21). It is on, so `Drop` models the handler without validation.
- `getPieceFromElement`, which reads a position from a DOM attribute.
- `selectedPiece` (src/game.js:37). Nothing in the rules core reads it.
- The turn-text and draggable-state updates inside `changeTurn`.
- Pieces.Covered: when a piece's threat list is empty, the spread adds `undefined` to the set. The model adds nothing, since no square ever matches that entry.
- Pieces.Covered: the set holds "y,x" strings; the model holds the squares. The encoding is injective, so membership is the same.
- Pieces.PossibleMoves: requires a cached position. Before caching, positions are `null`, which JavaScript treats as 0 in arithmetic but not as an index. Board creation caches every position before any move is generated.
- Pieces.PawnMoves: requires the pawn on the board with a row ahead. The modular program would index a missing row, but there promotion keeps pawns off rows 0 and 7 (`BoardOps.MoveKeepsPawnsOffEdges`). The single-file version, which never promotes, does reach that case; `Legacy.PawnMoves` models its TypeError.
- Pieces are values rather than shared objects. `movePiece` nulls the source square, so no piece is ever reachable from two squares.
- En passant, underpromotion, draws and pins: the program has none of them.

=== FILE: board.dfy ===
/** The board object: the opening placement, the caching of each piece's
    square, and the execution of a move with promotion, castling, the
    king-moved flags and the turn change. */
module BoardOps {
  import opened ChessTypes
  import opened Utils
  import opened GameState
  import opened Pieces

  /** Every piece's cached position is the square that holds it. */
  predicate Synced(b: Board) {
    forall i, j :: 0 <= i < Rows && 0 <= j < Columns && b[i][j].Occupied? ==> b[i][j].piece.pos == At(i, j)
  }

  /** The cell holds a pawn of either colour. */
  predicate HoldsPawn(c: Cell) {
    c.Occupied? && HoldsKind(c, c.piece.color, Pawn)
  }

  /** No pawn stands on row 0 or row 7. */
  predicate PawnsOffEdges(b: Board) {
    forall j :: 0 <= j < Columns ==> !HoldsPawn(b[0][j]) && !HoldsPawn(b[Rows - 1][j])
  }

  // ------------------------------------------------------------- Opening

  /** The back rank from file a to file h. */
  const BackRank: seq<Kind> := [Rook, Knight, Bishop, Queen, King, Bishop, Knight, Rook]

  function NewPiece(color: Color, kind: Kind): Piece {
    Piece(color, kind, Unplaced)
  }

  /** Puts a fresh piece of `kind` on row 7 (White) and row 0 (Black) at
      every column of `cols`, in order. */
  method PlaceBoth(b: Board, cols: seq<int>, kind: Kind) returns (b': Board)
    requires forall k :: 0 <= k < |cols| ==> 0 <= cols[k] < Columns
    ensures forall k :: 0 <= k < |cols| ==>
              b'[Rows - 1][cols[k]] == Occupied(NewPiece(White, kind)) && b'[0][cols[k]] == Occupied(NewPiece(Black, kind))
    ensures forall i, j :: InBounds(i, j) && !((i == 0 || i == Rows - 1) && j in cols) ==> b'[i][j] == b[i][j]
  {
    b' := b;
    var k := 0;
    while k < |cols|
      invariant 0 <= k <= |cols|
      invariant forall m :: 0 <= m < k ==>
                  b'[Rows - 1][cols[m]] == Occupied(NewPiece(White, kind)) && b'[0][cols[m]] == Occupied(NewPiece(Black, kind))
      invariant forall i, j :: InBounds(i, j) && !((i == 0 || i == Rows - 1) && j in cols[..k]) ==> b'[i][j] == b[i][j]
    {
      b' := Put(b', Rows - 1, cols[k], Occupied(NewPiece(White, kind)));
      b' := Put(b', 0, cols[k], Occupied(NewPiece(Black, kind)));
      assert cols[..k + 1] == cols[..k] + [cols[k]];
      k := k + 1;
    }
    assert cols[..k] == cols;
  }

  /** The pawn loop: rows 6 and 1 filled with pawns, everything else as in
      a board of `undefined` cells. */
  method PlacePawns() returns (b: Board)
    ensures forall j :: 0 <= j < Columns ==>
              b[6][j] == Occupied(NewPiece(White, Pawn)) && b[1][j] == Occupied(NewPiece(Black, Pawn))
    ensures forall i, j :: InBounds(i, j) && i != 1 && i != 6 ==> b[i][j] == Undef
  {
    b := seq(Rows, _ => seq(Columns, _ => Undef));
    var i := 0;
    while i < Columns
      invariant 0 <= i <= Columns
      invariant forall j :: 0 <= j < i ==>
                  b[6][j] == Occupied(NewPiece(White, Pawn)) && b[1][j] == Occupied(NewPiece(Black, Pawn))
      invariant forall r, j :: InBounds(r, j) && !((r == 1 || r == 6) && j < i) ==> b[r][j] == Undef
    {
      b := Put(b, 6, i, Occupied(NewPiece(White, Pawn)));
      b := Put(b, 1, i, Occupied(NewPiece(Black, Pawn)));
      i := i + 1;
    }
  }

  /** The back-rank placement: rooks, knights, bishops, queens and kings on
      rows 7 and 0; rows 1 to 6 left as they were. */
  method PlaceBackRanks(pawns: Board) returns (b: Board)
    ensures forall j :: 0 <= j < Columns ==>
              b[7][j] == Occupied(NewPiece(White, BackRank[j])) && b[0][j] == Occupied(NewPiece(Black, BackRank[j]))
    ensures forall i, j :: InBounds(i, j) && i != 0 && i != 7 ==> b[i][j] == pawns[i][j]
  {
    var rooks := PlaceBoth(pawns, [0, 7], Rook);
    var knights := PlaceBoth(rooks, [1, 6], Knight);
    var bishops := PlaceBoth(knights, [2, 5], Bishop);
    var queens := PlaceBoth(bishops, [3], Queen);
    b := PlaceBoth(queens, [4], King);
    forall j | 0 <= j < Columns
      ensures b[7][j] == Occupied(NewPiece(White, BackRank[j])) && b[0][j] == Occupied(NewPiece(Black, BackRank[j]))
    {
      var white, black := Occupied(NewPiece(White, BackRank[j])), Occupied(NewPiece(Black, BackRank[j]));
      if j == 0 || j == 7 {
        var k := if j == 0 then 0 else 1;
        assert [0, 7][k] == j;
        assert rooks[7][j] == white && rooks[0][j] == black;
        assert j !in [1, 6] && j !in [2, 5] && j !in [3] && j !in [4];
      } else if j == 1 || j == 6 {
        var k := if j == 1 then 0 else 1;
        assert [1, 6][k] == j;
        assert knights[7][j] == white && knights[0][j] == black;
        assert j !in [2, 5] && j !in [3] && j !in [4];
      } else if j == 2 || j == 5 {
        var k := if j == 2 then 0 else 1;
        assert [2, 5][k] == j;
        assert bishops[7][j] == white && bishops[0][j] == black;
        assert j !in [3] && j !in [4];
      } else if j == 3 {
        assert [3][0] == j;
        assert queens[7][j] == white && queens[0][j] == black;
        assert j !in [4];
      } else {
        assert [4][0] == j;
      }
    }
  }

  /** The placement part of `getBoardInstance`: eight rows of `undefined`,
      the pawns on rows 6 and 1, then the back ranks. No piece has a cached
      position yet. */
  method NewBoard() returns (b: Board)
    ensures forall j :: 0 <= j < Columns ==>
              b[6][j] == Occupied(NewPiece(White, Pawn)) && b[1][j] == Occupied(NewPiece(Black, Pawn))
    ensures forall j :: 0 <= j < Columns ==>
              b[7][j] == Occupied(NewPiece(White, BackRank[j])) && b[0][j] == Occupied(NewPiece(Black, BackRank[j]))
    ensures forall i, j :: 2 <= i < 6 && 0 <= j < Columns ==> b[i][j] == Undef
  {
    var pawns := PlacePawns();
    b := PlaceBackRanks(pawns);
  }

  // ------------------------------------------------- Position caching

  /** A cell after its piece, if any, has learnt that it stands on (i, j). */
  function Cached(c: Cell, i: int, j: int): Cell {
    if c.Occupied? then Occupied(c.piece.(pos := At(i, j))) else c
  }

  /** Two boards that agree on every square are the same board. */
  lemma SameCells(a: Board, b: Board)
    requires forall i, j :: InBounds(i, j) ==> a[i][j] == b[i][j]
    ensures a == b
  {
    forall i | 0 <= i < Rows ensures a[i] == b[i] {
      assert forall j :: 0 <= j < Columns ==> a[i][j] == b[i][j];
    }
  }

  /** `cachePiecesPositions`: writes each piece's square into its position
      fields, row by row. Afterwards the board is synced, nothing but the
      cached positions changed, and a board that was synced stays as it was. */
  method CachePiecesPositions(b: Board) returns (b': Board)
    ensures Synced(b')
    ensures forall i, j :: InBounds(i, j) ==> b'[i][j] == Cached(b[i][j], i, j)
    ensures Synced(b) ==> b' == b
  {
    b' := b;
    var i := 0;
    while i < Rows
      invariant 0 <= i <= Rows
      invariant forall r, c :: InBounds(r, c) ==> b'[r][c] == if r < i then Cached(b[r][c], r, c) else b[r][c]
    {
      var j := 0;
      while j < Columns
        invariant 0 <= j <= Columns
        invariant forall r, c :: InBounds(r, c) ==>
                    b'[r][c] == if r < i || (r == i && c < j) then Cached(b[r][c], r, c) else b[r][c]
      {
        if b'[i][j].Occupied? {
          b' := Put(b', i, j, Occupied(b'[i][j].piece.(pos := At(i, j))));
        }
        j := j + 1;
      }
      i := i + 1;
    }
    if Synced(b) {
      SameCells(b', b);
    }
  }

  /** Board creation: the opening placement followed by the caching of
      positions. */
  method StartingBoard() returns (b: Board)
    ensures Synced(b) && PawnsOffEdges(b) && BackRanksDefined(b)
    ensures forall j :: 0 <= j < Columns ==>
              HoldsKind(b[6][j], White, Pawn) && HoldsKind(b[1][j], Black, Pawn)
    ensures forall j :: 0 <= j < Columns ==>
              HoldsKind(b[7][j], White, BackRank[j]) && HoldsKind(b[0][j], Black, BackRank[j])
    ensures forall i, j :: 2 <= i < 6 && 0 <= j < Columns ==> b[i][j] == Undef
  {
    var placed := NewBoard();
    b := CachePiecesPositions(placed);
  }

  // ---------------------------------------------------------- Moving

  /** What lands on (tr, tc): a pawn reaching row 0 or 7 is replaced by a
      new Queen of its colour, and any piece learns its new square. */
  function Arrival(c: Cell, tr: int, tc: int): (c': Cell)
    ensures c'.Occupied? <==> c.Occupied?
    ensures c.Occupied? ==> c'.piece.color == c.piece.color && c'.piece.pos == At(tr, tc)
    ensures c.Occupied? ==>
              c'.piece.kind == (if c.piece.kind == Pawn && (tr == 0 || tr == Rows - 1) then Queen else c.piece.kind)
    ensures !c.Occupied? ==> c' == c
  {
    var promoted :=
      if c.Occupied? && c.piece.kind == Pawn && (tr == 0 || tr == Rows - 1)
      then Occupied(Piece(c.piece.color, Queen, Unplaced))
      else c;
    if promoted.Occupied? then Occupied(promoted.piece.(pos := At(tr, tc))) else promoted
  }

  /** Without a promotion, arriving only updates the cached position. */
  lemma ArrivalWithoutPromotion(c: Cell, tr: int, tc: int)
    requires HoldsPawn(c) ==> tr != 0 && tr != Rows - 1
    ensures Arrival(c, tr, tc) == Cached(c, tr, tc)
  {
  }

  /** The relocation of `movePiece`: copy the source cell to the target,
      null the source, promote and update the position of what landed. */
  function Relocate(b: Board, fr: int, fc: int, tr: int, tc: int): (b': Board)
    requires InBounds(fr, fc) && InBounds(tr, tc)
    ensures (fr, fc) != (tr, tc) ==> b'[tr][tc] == Arrival(b[fr][fc], tr, tc) && b'[fr][fc] == Null
    ensures (fr, fc) == (tr, tc) ==> b'[tr][tc] == Null
    ensures forall i, j :: InBounds(i, j) && (i, j) != (fr, fc) && (i, j) != (tr, tc) ==> b'[i][j] == b[i][j]
  {
    var copied := Put(Put(b, tr, tc, b[fr][fc]), fr, fc, Null);
    Put(copied, tr, tc, Arrival(copied[tr][tc], tr, tc))
  }

  /** Nesting depth left for the castling sub-moves: a King moved two
      columns right drags the piece on column 7 two columns left, which may
      in turn drag the piece on column 0. */
  function CastleDepth(fc: int, tc: int): nat {
    if tc - fc == 2 then 2 else if tc - fc == -2 then 1 else 0
  }

  /** What a call of `movePiece` leaves behind: the game, and whether the
      call stopped with a TypeError. The redraw after the relocation reads
      the colour of whatever landed on the target, so a `null` or
      `undefined` landing throws there: the board
      keeps the relocation, and the flag, the sub-move and the turn change
      are skipped, in the calling move too. */
  datatype Outcome = Outcome(game: Game, threw: bool)

  /** `movePiece` up to the turn change: relocation, promotion, the redraw's
      TypeError on an empty landing, the king-moved flag, the rook's castling
      sub-move (which does not change the turn), and the turn change when
      `changeTurn` is set and nothing threw. */
  function MovePiece(g: Game, fr: int, fc: int, tr: int, tc: int, changeTurn: bool): (out: Outcome)
    requires InBounds(fr, fc) && InBounds(tr, tc)
    ensures out.game.turn == if changeTurn && !out.threw then Other(g.turn) else g.turn
    ensures (fr, fc) == (tr, tc) || !g.board[fr][fc].Occupied? ==> out.threw
    ensures (fr, fc) != (tr, tc) && g.board[fr][fc].Occupied? && g.board[fr][fc].piece.kind != King ==> !out.threw
    ensures forall c :: KingMoved(g, c) ==> KingMoved(out.game, c)
    ensures out.game.check == g.check && out.game.checkmate == g.checkmate && out.game.stalemate == g.stalemate
    decreases CastleDepth(fc, tc)
  {
    var b := Relocate(g.board, fr, fc, tr, tc);
    var landed := b[tr][tc];
    var moved := g.(board := b);
    if !landed.Occupied? then Outcome(moved, true)
    else
      var sub :=
        if landed.piece.kind == King then
          var flagged := SetKingMoved(moved, landed.piece.color);
          if tc - fc == 2 then MovePiece(flagged, tr, 7, tr, 5, false)
          else if tc - fc == -2 then MovePiece(flagged, tr, 0, tr, 3, false)
          else Outcome(flagged, false)
        else Outcome(moved, false);
      Finish(sub, changeTurn)
  }

  /** The end of `movePiece`: the turn changes when asked to, unless an
      earlier step threw. */
  function Finish(sub: Outcome, changeTurn: bool): (out: Outcome)
    ensures out.threw == sub.threw
    ensures out.game.turn == if changeTurn && !sub.threw then Other(sub.game.turn) else sub.game.turn
    ensures out.game == sub.game.(turn := out.game.turn)
  {
    if sub.threw then sub
    else Outcome(if changeTurn then ChangeTurn(sub.game) else sub.game, false)
  }

  /** The drop handler with validation switched off: dropping a piece on its
      own square does nothing; any other drop is a top-level move, which
      changes the turn unless it threw, as it does from an empty square. */
  function Drop(g: Game, fr: int, fc: int, tr: int, tc: int): (out: Outcome)
    requires InBounds(fr, fc) && InBounds(tr, tc)
    ensures (fr, fc) == (tr, tc) ==> out == Outcome(g, false)
    ensures out.game.turn == if (fr, fc) != (tr, tc) && !out.threw then Other(g.turn) else g.turn
    ensures (fr, fc) != (tr, tc) && !g.board[fr][fc].Occupied? ==> out.threw && out.game.turn == g.turn
    ensures (fr, fc) != (tr, tc) && g.board[fr][fc].Occupied? && g.board[fr][fc].piece.kind != King ==>
              !out.threw && out.game.turn == Other(g.turn)
  {
    if fr == tr && fc == tc then Outcome(g, false) else MovePiece(g, fr, fc, tr, tc, true)
  }

  // ------------------------------------------------ Invariants of a move

  lemma {:induction false} MoveKeepsSynced(g: Game, fr: int, fc: int, tr: int, tc: int, changeTurn: bool)
    requires InBounds(fr, fc) && InBounds(tr, tc) && Synced(g.board)
    ensures Synced(MovePiece(g, fr, fc, tr, tc, changeTurn).game.board)
    decreases CastleDepth(fc, tc)
  {
    var out := MovePiece(g, fr, fc, tr, tc, changeTurn);
    var b := Relocate(g.board, fr, fc, tr, tc);
    assert Synced(b);
    var landed := b[tr][tc];
    if landed.Occupied? && landed.piece.kind == King {
      var flagged := SetKingMoved(g.(board := b), landed.piece.color);
      if tc - fc == 2 {
        MoveKeepsSynced(flagged, tr, 7, tr, 5, false);
        assert out.game.board == MovePiece(flagged, tr, 7, tr, 5, false).game.board;
      } else if tc - fc == -2 {
        MoveKeepsSynced(flagged, tr, 0, tr, 3, false);
        assert out.game.board == MovePiece(flagged, tr, 0, tr, 3, false).game.board;
      } else {
        assert out.game.board == b;
      }
    } else {
      assert out.game.board == b;
    }
  }

  lemma RelocateLeavesNoEdgePawn(b: Board, fr: int, fc: int, tr: int, tc: int, i: int, j: int)
    requires InBounds(fr, fc) && InBounds(tr, tc) && InBounds(i, j) && (i == 0 || i == Rows - 1)
    requires !HoldsPawn(b[i][j])
    ensures !HoldsPawn(Relocate(b, fr, fc, tr, tc)[i][j])
  {
  }

  /** Promotion keeps both edge rows free of pawns. */
  lemma {:induction false} MoveKeepsPawnsOffEdges(g: Game, fr: int, fc: int, tr: int, tc: int, changeTurn: bool)
    requires InBounds(fr, fc) && InBounds(tr, tc) && PawnsOffEdges(g.board)
    ensures PawnsOffEdges(MovePiece(g, fr, fc, tr, tc, changeTurn).game.board)
    decreases CastleDepth(fc, tc)
  {
    var out := MovePiece(g, fr, fc, tr, tc, changeTurn);
    var b := Relocate(g.board, fr, fc, tr, tc);
    forall j | 0 <= j < Columns ensures !HoldsPawn(b[0][j]) && !HoldsPawn(b[Rows - 1][j]) {
      RelocateLeavesNoEdgePawn(g.board, fr, fc, tr, tc, 0, j);
      RelocateLeavesNoEdgePawn(g.board, fr, fc, tr, tc, Rows - 1, j);
    }
    assert PawnsOffEdges(b);
    var landed := b[tr][tc];
    if landed.Occupied? && landed.piece.kind == King {
      var flagged := SetKingMoved(g.(board := b), landed.piece.color);
      if tc - fc == 2 {
        MoveKeepsPawnsOffEdges(flagged, tr, 7, tr, 5, false);
        assert out.game.board == MovePiece(flagged, tr, 7, tr, 5, false).game.board;
      } else if tc - fc == -2 {
        MoveKeepsPawnsOffEdges(flagged, tr, 0, tr, 3, false);
        assert out.game.board == MovePiece(flagged, tr, 0, tr, 3, false).game.board;
      } else {
        assert out.game.board == b;
      }
    } else {
      assert out.game.board == b;
    }
  }

  /** No back-rank cell becomes `undefined` unless an `undefined` cell is
      moved onto a back rank. */
  lemma {:induction false} MoveKeepsBackRanksDefined(g: Game, fr: int, fc: int, tr: int, tc: int, changeTurn: bool)
    requires InBounds(fr, fc) && InBounds(tr, tc) && BackRanksDefined(g.board)
    requires g.board[fr][fc] != Undef || (tr != 0 && tr != Rows - 1)
    ensures BackRanksDefined(MovePiece(g, fr, fc, tr, tc, changeTurn).game.board)
    decreases CastleDepth(fc, tc)
  {
    var out := MovePiece(g, fr, fc, tr, tc, changeTurn);
    var b := Relocate(g.board, fr, fc, tr, tc);
    assert BackRanksDefined(b);
    var landed := b[tr][tc];
    if landed.Occupied? && landed.piece.kind == King {
      var flagged := SetKingMoved(g.(board := b), landed.piece.color);
      if tc - fc == 2 {
        MoveKeepsBackRanksDefined(flagged, tr, 7, tr, 5, false);
        assert out.game.board == MovePiece(flagged, tr, 7, tr, 5, false).game.board;
      } else if tc - fc == -2 {
        MoveKeepsBackRanksDefined(flagged, tr, 0, tr, 3, false);
        assert out.game.board == MovePiece(flagged, tr, 0, tr, 3, false).game.board;
      } else {
        assert out.game.board == b;
      }
    } else {
      assert out.game.board == b;
    }
  }

  // ------------------------------------------------- Kinds of move

  /** A move of any piece but a King: the source is nulled, the target holds
      the arriving piece, nothing else changes but the turn, and nothing
      throws. */
  lemma PlainMove(g: Game, fr: int, fc: int, tr: int, tc: int, changeTurn: bool)
    requires InBounds(fr, fc) && InBounds(tr, tc) && (fr, fc) != (tr, tc)
    requires g.board[fr][fc].Occupied? && g.board[fr][fc].piece.kind != King
    ensures var out := MovePiece(g, fr, fc, tr, tc, changeTurn);
            && !out.threw
            && out.game.board[fr][fc] == Null
            && out.game.board[tr][tc] == Arrival(g.board[fr][fc], tr, tc)
            && (forall i, j :: InBounds(i, j) && (i, j) != (fr, fc) && (i, j) != (tr, tc) ==> out.game.board[i][j] == g.board[i][j])
            && (forall c :: KingMoved(out.game, c) == KingMoved(g, c))
  {
  }

  /** Moving from an empty square copies the emptiness onto the target,
      nulls the source, and throws before the turn changes. */
  lemma MoveFromEmptySquare(g: Game, fr: int, fc: int, tr: int, tc: int, changeTurn: bool)
    requires InBounds(fr, fc) && InBounds(tr, tc) && (fr, fc) != (tr, tc)
    requires !g.board[fr][fc].Occupied?
    ensures var out := MovePiece(g, fr, fc, tr, tc, changeTurn);
            && out.threw && out.game.turn == g.turn
            && out.game.board[fr][fc] == Null
            && out.game.board[tr][tc] == g.board[fr][fc]
            && (forall i, j :: InBounds(i, j) && (i, j) != (fr, fc) && (i, j) != (tr, tc) ==> out.game.board[i][j] == g.board[i][j])
            && (forall c :: KingMoved(out.game, c) == KingMoved(g, c))
  {
  }

  /** A pawn reaching row 0 or 7 becomes a Queen of its colour on that square. */
  lemma Promotion(g: Game, fr: int, fc: int, tr: int, tc: int, changeTurn: bool)
    requires InBounds(fr, fc) && InBounds(tr, tc) && (fr, fc) != (tr, tc)
    requires HoldsPawn(g.board[fr][fc]) && (tr == 0 || tr == Rows - 1)
    ensures MovePiece(g, fr, fc, tr, tc, changeTurn).game.board[tr][tc]
            == Occupied(Piece(g.board[fr][fc].piece.color, Queen, At(tr, tc)))
  {
  }

  /** Moving a piece onto its own square erases it: the copy is overwritten
      by the `null` written to the source, and the redraw then throws. */
  lemma MoveErasesOnSameSquare(g: Game, r: int, c: int, changeTurn: bool)
    requires InBounds(r, c)
    ensures var out := MovePiece(g, r, c, r, c, changeTurn);
            && out.threw && out.game.turn == g.turn
            && out.game.board[r][c] == Null
            && (forall i, j :: InBounds(i, j) && (i, j) != (r, c) ==> out.game.board[i][j] == g.board[i][j])
  {
  }

  /** Moving a King raises its side's flag, whatever the squares, whether
      a castling sub-move follows and whether that sub-move throws. */
  lemma KingMoveRaisesFlag(g: Game, fr: int, fc: int, tr: int, tc: int, changeTurn: bool)
    requires InBounds(fr, fc) && InBounds(tr, tc) && (fr, fc) != (tr, tc)
    requires g.board[fr][fc].Occupied? && g.board[fr][fc].piece.kind == King
    ensures KingMoved(MovePiece(g, fr, fc, tr, tc, changeTurn).game, g.board[fr][fc].piece.color)
  {
    var color := g.board[fr][fc].piece.color;
    var b := Relocate(g.board, fr, fc, tr, tc);
    assert b[tr][tc].Occupied? && b[tr][tc].piece.kind == King && b[tr][tc].piece.color == color;
    var flagged := SetKingMoved(g.(board := b), color);
    var sub :=
      if tc - fc == 2 then MovePiece(flagged, tr, 7, tr, 5, false)
      else if tc - fc == -2 then MovePiece(flagged, tr, 0, tr, 3, false)
      else Outcome(flagged, false);
    assert KingMoved(sub.game, color);
    assert MovePiece(g, fr, fc, tr, tc, changeTurn) == Finish(sub, changeTurn);
  }

  /** A King move other than a two-column one moves the King alone and
      raises its side's flag. */
  lemma KingStep(g: Game, fr: int, fc: int, tr: int, tc: int, changeTurn: bool)
    requires InBounds(fr, fc) && InBounds(tr, tc) && (fr, fc) != (tr, tc)
    requires g.board[fr][fc].Occupied? && g.board[fr][fc].piece.kind == King
    requires tc - fc != 2 && tc - fc != -2
    ensures var out := MovePiece(g, fr, fc, tr, tc, changeTurn);
            && !out.threw
            && out.game.board[fr][fc] == Null
            && out.game.board[tr][tc] == Occupied(g.board[fr][fc].piece.(pos := At(tr, tc)))
            && (forall i, j :: InBounds(i, j) && (i, j) != (fr, fc) && (i, j) != (tr, tc) ==> out.game.board[i][j] == g.board[i][j])
            && KingMoved(out.game, g.board[fr][fc].piece.color)
  {
  }

  /** Short castling: the King goes from column 4 to 6 and the piece on
      column 7 to column 5, the turn changes at most once, and the King's
      side can no longer castle. */
  lemma CastleKingside(g: Game, r: int, changeTurn: bool)
    requires 0 <= r < Rows
    requires g.board[r][4].Occupied? && g.board[r][4].piece.kind == King
    requires g.board[r][7].Occupied? && g.board[r][7].piece.kind != King
    ensures var out := MovePiece(g, r, 4, r, 6, changeTurn);
            && !out.threw
            && out.game.board[r][4] == Null && out.game.board[r][7] == Null
            && out.game.board[r][6] == Occupied(g.board[r][4].piece.(pos := At(r, 6)))
            && out.game.board[r][5] == Arrival(g.board[r][7], r, 5)
            && (forall i, j :: InBounds(i, j) && !(i == r && 4 <= j) ==> out.game.board[i][j] == g.board[i][j])
            && KingMoved(out.game, g.board[r][4].piece.color)
            && out.game.turn == (if changeTurn then Other(g.turn) else g.turn)
  {
    var flagged := SetKingMoved(g.(board := Relocate(g.board, r, 4, r, 6)), g.board[r][4].piece.color);
    PlainMove(flagged, r, 7, r, 5, false);
  }

  /** Long castling: the King goes from column 4 to 2 and the piece on
      column 0 to column 3; column 1 is left as it was. */
  lemma CastleQueenside(g: Game, r: int, changeTurn: bool)
    requires 0 <= r < Rows
    requires g.board[r][4].Occupied? && g.board[r][4].piece.kind == King
    requires g.board[r][0].Occupied? && g.board[r][0].piece.kind != King
    ensures var out := MovePiece(g, r, 4, r, 2, changeTurn);
            && !out.threw
            && out.game.board[r][4] == Null && out.game.board[r][0] == Null
            && out.game.board[r][2] == Occupied(g.board[r][4].piece.(pos := At(r, 2)))
            && out.game.board[r][3] == Arrival(g.board[r][0], r, 3)
            && (forall i, j :: InBounds(i, j) && !(i == r && (j == 0 || 2 <= j <= 4)) ==> out.game.board[i][j] == g.board[i][j])
            && KingMoved(out.game, g.board[r][4].piece.color)
            && out.game.turn == (if changeTurn then Other(g.turn) else g.turn)
  {
    var flagged := SetKingMoved(g.(board := Relocate(g.board, r, 4, r, 2)), g.board[r][4].piece.color);
    PlainMove(flagged, r, 0, r, 3, false);
  }

  /** A King moved from column 4 to column 6 of a row with nothing on
      column 7: the King moves and its flag is raised, but the sub-move lands
      an empty cell, throws, and the turn does not change. */
  lemma CastlingOntoEmptyCornerThrows(g: Game, fr: int, fc: int, tr: int, tc: int, changeTurn: bool)
    requires InBounds(fr, fc) && InBounds(tr, tc) && fc == 4 && tc == 6
    requires g.board[fr][fc].Occupied? && g.board[fr][fc].piece.kind == King
    requires !g.board[tr][Columns - 1].Occupied?
    ensures var out := MovePiece(g, fr, fc, tr, tc, changeTurn);
            && out.threw && out.game.turn == g.turn
            && out.game.board[fr][fc] == Null
            && out.game.board[tr][tc] == Occupied(g.board[fr][fc].piece.(pos := At(tr, tc)))
            && KingMoved(out.game, g.board[fr][fc].piece.color)
  {
    var b := Relocate(g.board, fr, fc, tr, tc);
    assert b[tr][7] == g.board[tr][7];
    var flagged := SetKingMoved(g.(board := b), g.board[fr][fc].piece.color);
    var sub := MovePiece(flagged, tr, 7, tr, 5, false);
    assert sub.threw;
    assert sub.game.board[fr][fc] == Null && sub.game.board[tr][tc] == b[tr][tc];
  }
}

=== FILE: chess_types.dfy ===
/** Values shared by every part of the chess model: colours, piece kinds,
    pieces with their cached square, board cells and the 8x8 board. */
module ChessTypes {

  datatype Option<T> = None | Some(value: T)

  datatype Color = White | Black

  datatype Kind = Pawn | Knight | Bishop | Rook | Queen | King

  /** The square a piece believes it stands on; `Unplaced` while its
      positionY/positionX fields are still null. */
  datatype Position = Unplaced | At(row: int, col: int)

  datatype Piece = Piece(color: Color, kind: Kind, pos: Position)

  /** One slot of the board. JavaScript tells a slot that was never written
      (`undefined`) apart from one a move has vacated (`null`). */
  datatype Cell = Undef | Null | Occupied(piece: Piece)

  /** A (row, column) pair; row 0 is Black's back rank, column 0 is file a. */
  type Square = (int, int)

  const Rows: int := 8
  const Columns: int := 8

  predicate InBounds(y: int, x: int) {
    0 <= y < Rows && 0 <= x < Columns
  }

  predicate IsGrid(b: seq<seq<Cell>>) {
    |b| == Rows && forall i :: 0 <= i < |b| ==> |b[i]| == Columns
  }

  /** The board array: eight rows of eight cells. */
  type Board = b: seq<seq<Cell>> | IsGrid(b) witness seq(8, _ => seq(8, _ => Undef))

  function Other(c: Color): (o: Color)
    ensures o != c
  {
    if c == White then Black else White
  }

  /** `board[y][x]` for a row that exists: a column outside 0..7 reads as
      `undefined`, as any JavaScript array read past its end does. */
  function Read(b: Board, y: int, x: int): (c: Cell)
    requires 0 <= y < Rows
    ensures InBounds(y, x) ==> c == b[y][x]
    ensures !InBounds(y, x) ==> c == Undef
  {
    if 0 <= x < Columns then b[y][x] else Undef
  }

  /** `board[y][x] = c`: the board with one cell replaced. */
  function Put(b: Board, y: int, x: int, c: Cell): (b': Board)
    requires InBounds(y, x)
    ensures b'[y][x] == c
    ensures forall i, j :: InBounds(i, j) && (i, j) != (y, x) ==> b'[i][j] == b[i][j]
  {
    b[y := b[y][x := c]]
  }

  predicate HoldsKind(c: Cell, color: Color, kind: Kind) {
    c.Occupied? && c.piece.color == color && c.piece.kind == kind
  }
}

=== FILE: game.dfy ===
/** The game record: the board plus whose turn it is, the castling gates and
    the status flags. */
module GameState {
  import opened ChessTypes

  datatype Game = Game(
    board: Board,
    turn: Color,
    check: bool,
    checkmate: bool,
    stalemate: bool,
    whiteKingMoved: bool,
    blackKingMoved: bool)

  /** The castling gate of one side: true once that side's king has moved. */
  function KingMoved(g: Game, c: Color): bool {
    if c == White then g.whiteKingMoved else g.blackKingMoved
  }

  /** The `Game` constructor: White to move, both kings unmoved, no check. */
  function NewGame(b: Board): (g: Game)
    ensures g.board == b && g.turn == White
    ensures !KingMoved(g, White) && !KingMoved(g, Black)
    ensures !g.check && !g.checkmate && !g.stalemate
  {
    Game(b, White, false, false, false, false, false)
  }

  /** Raises the castling gate of side `c`; the flags are never lowered. */
  function SetKingMoved(g: Game, c: Color): (g': Game)
    ensures KingMoved(g', c)
    ensures KingMoved(g', Other(c)) == KingMoved(g, Other(c))
    ensures g'.board == g.board && g'.turn == g.turn
    ensures g'.check == g.check && g'.checkmate == g.checkmate && g'.stalemate == g.stalemate
  {
    if c == White then g.(whiteKingMoved := true) else g.(blackKingMoved := true)
  }

  /** `changeTurn`: hands the move to the other side and touches nothing else. */
  function ChangeTurn(g: Game): (g': Game)
    ensures g'.turn != g.turn
    ensures g' == g.(turn := g'.turn)
  {
    g.(turn := Other(g.turn))
  }

  lemma ChangeTurnTwice(g: Game)
    ensures ChangeTurn(ChangeTurn(g)) == g
  {
  }
}

=== FILE: legacy.dfy ===
/** The earlier single-file version of the game. Only the pawn generates
    moves there, and a move is a bare relocation: no promotion, no castling
    and no turn. Its emptiness test, membership test, board set-up and
    position caching are the same code as in the modular version and are
    modelled once, in `Utils` and `BoardOps`. */
module Legacy {
  import opened ChessTypes
  import opened Utils
  import opened GameState
  import Pieces
  import BoardOps

  /** The pawn generator as the single-file version writes it: a list grown
      by pushes. Since this version never promotes, a pawn can reach its far
      row; the generator then reads the missing row beyond it and throws a
      TypeError (`threw`, with no moves). Otherwise it computes exactly the
      modular version's pawn moves. */
  method PawnMoves(b: Board, color: Color, y: int, x: int) returns (moves: seq<Square>, threw: bool)
    requires InBounds(y, x)
    ensures threw <==> !(0 <= y + Pieces.Direction(color) < Rows)
    ensures threw ==> moves == []
    ensures !threw ==> moves == Pieces.PawnMoves(b, color, y, x)
  {
    moves := [];
    var direction := if color == White then -1 else 1;
    var startingRow := if color == White then 6 else 1;
    var nextRow := y + direction;
    var nextNextRow := y + 2 * direction;
    if !(0 <= nextRow < Rows) {
      return [], true;
    }
    threw := false;
    if CellIsEmpty(b[nextRow][x]) {
      moves := moves + [(nextRow, x)];
    }
    if y == startingRow && CellIsEmpty(b[nextRow][x]) && CellIsEmpty(b[nextNextRow][x]) {
      moves := moves + [(nextNextRow, x)];
    }
    assert moves == Pieces.PawnAdvances(b, color, y, x);
    var leftDiagonal := x - 1;
    var rightDiagonal := x + 1;
    var advances := moves;
    if leftDiagonal >= 0 && !CellIsEmpty(Read(b, nextRow, leftDiagonal))
       && Read(b, nextRow, leftDiagonal).piece.color != color
       && Read(b, nextRow, leftDiagonal).piece.kind != King {
      moves := moves + [(nextRow, leftDiagonal)];
    }
    assert moves == advances + Pieces.Diagonal(b, color, nextRow, leftDiagonal);
    var withLeft := moves;
    if rightDiagonal >= 0 && !CellIsEmpty(Read(b, nextRow, rightDiagonal))
       && Read(b, nextRow, rightDiagonal).piece.color != color
       && Read(b, nextRow, rightDiagonal).piece.kind != King {
      moves := moves + [(nextRow, rightDiagonal)];
    }
    var left, right := Pieces.Diagonal(b, color, nextRow, leftDiagonal), Pieces.Diagonal(b, color, nextRow, rightDiagonal);
    assert moves == (advances + left) + right;
    assert nextRow == y + Pieces.Direction(color);
    assert Pieces.PawnCaptures(b, color, y, x) == left + right;
    AppendAssociates(advances, left, right);
  }

  /** Regrouping the pushes of the imperative generator. */
  lemma AppendAssociates<T>(a: seq<T>, b: seq<T>, c: seq<T>)
    ensures (a + b) + c == a + (b + c)
  {
  }

  /** `possibleMoves` of the single-file version: the pawn's moves, and
      nothing for any other piece, which inherits the base class's empty list. */
  method PossibleMoves(b: Board, p: Piece) returns (moves: seq<Square>, threw: bool)
    requires p.kind == Pawn ==> p.pos.At? && InBounds(p.pos.row, p.pos.col)
    ensures p.kind != Pawn ==> moves == [] && !threw
    ensures p.kind == Pawn ==> (threw <==> !(0 <= p.pos.row + Pieces.Direction(p.color) < Rows))
    ensures p.kind == Pawn && !threw ==> moves == Pieces.PawnMoves(b, p.color, p.pos.row, p.pos.col)
  {
    if p.kind == Pawn {
      moves, threw := PawnMoves(b, p.color, p.pos.row, p.pos.col);
    } else {
      moves, threw := [], false;
    }
  }

  /** The single-file `movePiece`: copy, null the source, update the
      position of what landed. */
  function MovePiece(b: Board, fr: int, fc: int, tr: int, tc: int): (b': Board)
    requires InBounds(fr, fc) && InBounds(tr, tc)
    ensures (fr, fc) != (tr, tc) ==> b'[tr][tc] == BoardOps.Cached(b[fr][fc], tr, tc) && b'[fr][fc] == Null
    ensures (fr, fc) == (tr, tc) ==> b'[fr][fc] == Null
    ensures forall i, j :: InBounds(i, j) && (i, j) != (fr, fc) && (i, j) != (tr, tc) ==> b'[i][j] == b[i][j]
  {
    var copied := Put(Put(b, tr, tc, b[fr][fc]), fr, fc, Null);
    Put(copied, tr, tc, BoardOps.Cached(copied[tr][tc], tr, tc))
  }

  /** Where the modular version adds nothing (no King, no promotion), both
      versions leave the same board. */
  lemma MoveAgreesWithModular(g: Game, fr: int, fc: int, tr: int, tc: int, changeTurn: bool)
    requires InBounds(fr, fc) && InBounds(tr, tc)
    requires g.board[fr][fc].Occupied? ==> g.board[fr][fc].piece.kind != King
    requires BoardOps.HoldsPawn(g.board[fr][fc]) ==> tr != 0 && tr != Rows - 1
    ensures MovePiece(g.board, fr, fc, tr, tc) == BoardOps.MovePiece(g, fr, fc, tr, tc, changeTurn).game.board
  {
    if (fr, fc) != (tr, tc) {
      DistinctSquaresAgree(g, fr, fc, tr, tc, changeTurn);
    } else {
      SameSquareAgrees(g, fr, fc, changeTurn);
    }
  }

  lemma DistinctSquaresAgree(g: Game, fr: int, fc: int, tr: int, tc: int, changeTurn: bool)
    requires InBounds(fr, fc) && InBounds(tr, tc) && (fr, fc) != (tr, tc)
    requires g.board[fr][fc].Occupied? ==> g.board[fr][fc].piece.kind != King
    requires BoardOps.HoldsPawn(g.board[fr][fc]) ==> tr != 0 && tr != Rows - 1
    ensures MovePiece(g.board, fr, fc, tr, tc) == BoardOps.MovePiece(g, fr, fc, tr, tc, changeTurn).game.board
  {
    if g.board[fr][fc].Occupied? {
      BoardOps.PlainMove(g, fr, fc, tr, tc, changeTurn);
    } else {
      BoardOps.MoveFromEmptySquare(g, fr, fc, tr, tc, changeTurn);
    }
    BoardOps.ArrivalWithoutPromotion(g.board[fr][fc], tr, tc);
    BoardOps.SameCells(MovePiece(g.board, fr, fc, tr, tc), BoardOps.MovePiece(g, fr, fc, tr, tc, changeTurn).game.board);
  }

  lemma SameSquareAgrees(g: Game, r: int, c: int, changeTurn: bool)
    requires InBounds(r, c)
    ensures MovePiece(g.board, r, c, r, c) == BoardOps.MovePiece(g, r, c, r, c, changeTurn).game.board
  {
    BoardOps.MoveErasesOnSameSquare(g, r, c, changeTurn);
    BoardOps.SameCells(MovePiece(g.board, r, c, r, c), BoardOps.MovePiece(g, r, c, r, c, changeTurn).game.board);
  }

  /** The single-file version keeps promoting nothing: a pawn reaching the
      last row stays a pawn. */
  lemma NoPromotion(b: Board, fr: int, fc: int, tr: int, tc: int)
    requires InBounds(fr, fc) && InBounds(tr, tc) && (fr, fc) != (tr, tc)
    requires BoardOps.HoldsPawn(b[fr][fc])
    ensures BoardOps.HoldsPawn(MovePiece(b, fr, fc, tr, tc)[tr][tc])
  {
  }

  /** A White pawn capturing onto row 0 stays a pawn there, with no row
      ahead of it: from then on its move generator throws. */
  lemma PawnReachesFarRow(b: Board, fc: int, tc: int)
    requires 0 <= fc < Columns && 0 <= tc < Columns
    requires HoldsKind(b[1][fc], White, Pawn)
    ensures var c := MovePiece(b, 1, fc, 0, tc)[0][tc];
            && HoldsKind(c, White, Pawn) && c.piece.pos == At(0, tc)
            && !(0 <= c.piece.pos.row + Pieces.Direction(c.piece.color) < Rows)
  {
  }

  /** The number of rows of the board object, which the cell code reads. */
  const BoardRows: int := 8

  /** `getCellCode` of the single-file version: the file letter followed by
      the board's row count minus the row. */
  function CellCode(row: int, col: int): (code: string)
    requires InBounds(row, col)
    ensures code == Utils.CellCode(row, col)
  {
    [Letters[col], Digit(BoardRows - row)]
  }
}

=== FILE: pieces.dfy ===
/** Move generation per piece type: the squares a piece may move to
    (`possibleMoves`) and the squares it threatens (`takingMoves`). Every
    generator reads the piece's cached square and the board; moves come out
    in the fixed order the rules enumerate them. */
module Pieces {
  import opened ChessTypes
  import opened Utils
  import opened GameState

  /** Row step of a pawn: White advances toward row 0, Black toward row 7. */
  function Direction(c: Color): int {
    if c == White then -1 else 1
  }

  function StartingRow(c: Color): int {
    if c == White then 6 else 1
  }

  /** The back rank a side's king and rooks start on. */
  function HomeRow(c: Color): int {
    if c == White then 7 else 0
  }

  /** A cell holding an enemy of `color` that is not a King: the only thing a
      move may capture, and the only kind of piece that covers squares. */
  predicate Capturable(c: Cell, color: Color) {
    c.Occupied? && c.piece.color != color && c.piece.kind != King
  }

  /** A cell a piece of `color` may land on: empty or capturable. */
  predicate Enterable(c: Cell, color: Color) {
    CellIsEmpty(c) || Capturable(c, color)
  }

  /** True when `a` is `b` with some elements left out, order kept. */
  predicate Subsequence<T(==)>(a: seq<T>, b: seq<T>)
    decreases |b|
  {
    |a| == 0 || (|b| > 0 && ((a[0] == b[0] && Subsequence(a[1..], b[1..])) || Subsequence(a, b[1..])))
  }

  // ---------------------------------------------------------------- Pawn

  /** The forward part of `Pawn.possibleMoves`: one step onto an empty
      square, then two steps from the starting row over two empty squares. */
  function PawnAdvances(b: Board, color: Color, y: int, x: int): (moves: seq<Square>)
    requires InBounds(y, x) && 0 <= y + Direction(color) < Rows
    ensures forall sq :: sq in moves ==> sq.1 == x && EmptyAt(b, sq)
    ensures (y + Direction(color), x) in moves <==> CellIsEmpty(b[y + Direction(color)][x])
    ensures (y + 2 * Direction(color), x) in moves <==>
              && y == StartingRow(color)
              && CellIsEmpty(b[y + Direction(color)][x])
              && CellIsEmpty(b[y + 2 * Direction(color)][x])
    ensures forall sq :: sq in moves ==> sq == (y + Direction(color), x) || sq == (y + 2 * Direction(color), x)
  {
    var ahead := y + Direction(color);
    var single := if CellIsEmpty(b[ahead][x]) then [(ahead, x)] else [];
    var double :=
      if y == StartingRow(color) && CellIsEmpty(b[ahead][x]) && CellIsEmpty(b[y + 2 * Direction(color)][x])
      then [(y + 2 * Direction(color), x)] else [];
    single + double
  }

  /** One diagonal step of a pawn onto column `col` of the row ahead, kept
      when the column is not negative and holds a capturable piece. */
  function Diagonal(b: Board, color: Color, ahead: int, col: int): (moves: seq<Square>)
    requires 0 <= ahead < Rows
    ensures moves == [] || (moves == [(ahead, col)] && InBounds(ahead, col) && Capturable(b[ahead][col], color))
    ensures InBounds(ahead, col) && Capturable(b[ahead][col], color) ==> moves == [(ahead, col)]
  {
    if col >= 0 && Capturable(Read(b, ahead, col), color) then [(ahead, col)] else []
  }

  /** The capturing part of `Pawn.possibleMoves`: a diagonal step ahead onto
      a capturable piece, left before right. */
  function PawnCaptures(b: Board, color: Color, y: int, x: int): (moves: seq<Square>)
    requires InBounds(y, x) && 0 <= y + Direction(color) < Rows
    ensures forall sq :: sq in moves ==> InBounds(sq.0, sq.1) && Capturable(b[sq.0][sq.1], color)
    ensures (y + Direction(color), x - 1) in moves <==>
              x >= 1 && Capturable(b[y + Direction(color)][x - 1], color)
    ensures (y + Direction(color), x + 1) in moves <==>
              x + 1 < Columns && Capturable(b[y + Direction(color)][x + 1], color)
    ensures forall sq :: sq in moves ==> sq == (y + Direction(color), x - 1) || sq == (y + Direction(color), x + 1)
  {
    // Both diagonals are guarded by `>= 0`, which always holds on the right;
    // past column 7 the read is `undefined`, so nothing is emitted there.
    Diagonal(b, color, y + Direction(color), x - 1) + Diagonal(b, color, y + Direction(color), x + 1)
  }

  /** `Pawn.possibleMoves`: the advances, then the captures. The row ahead
      must exist: the program indexes it. */
  function PawnMoves(b: Board, color: Color, y: int, x: int): (moves: seq<Square>)
    requires InBounds(y, x) && 0 <= y + Direction(color) < Rows
    ensures forall sq :: sq in moves ==> InBounds(sq.0, sq.1) && Enterable(b[sq.0][sq.1], color)
    ensures (y + Direction(color), x) in moves <==> CellIsEmpty(b[y + Direction(color)][x])
    ensures (y + 2 * Direction(color), x) in moves <==>
              && y == StartingRow(color)
              && CellIsEmpty(b[y + Direction(color)][x])
              && CellIsEmpty(b[y + 2 * Direction(color)][x])
    ensures (y + Direction(color), x - 1) in moves <==>
              x >= 1 && Capturable(b[y + Direction(color)][x - 1], color)
    ensures (y + Direction(color), x + 1) in moves <==>
              x + 1 < Columns && Capturable(b[y + Direction(color)][x + 1], color)
    ensures forall sq :: sq in moves ==>
              || (sq.0 == y + Direction(color) && x - 1 <= sq.1 <= x + 1)
              || sq == (y + 2 * Direction(color), x)
  {
    PawnAdvances(b, color, y, x) + PawnCaptures(b, color, y, x)
  }

  /** `Pawn.takingMoves`: both diagonals ahead whatever they hold; the left
      one only from column 1 on, the right one always (so a pawn on column 7
      reports column 8). */
  function PawnTakingMoves(color: Color, y: int, x: int): (threats: seq<Square>)
    ensures forall sq :: sq in threats ==> sq.0 == y + Direction(color) && (sq.1 == x - 1 || sq.1 == x + 1)
    ensures (y + Direction(color), x - 1) in threats <==> x >= 1
    ensures x >= 0 ==> (y + Direction(color), x + 1) in threats
    ensures x >= 1 ==> threats[0] == (y + Direction(color), x - 1)
  {
    var ahead := y + Direction(color);
    (if x - 1 >= 0 then [(ahead, x - 1)] else []) + (if x + 1 >= 0 then [(ahead, x + 1)] else [])
  }

  /** A pawn threatens every square it could capture on. */
  lemma PawnCapturesAreThreats(b: Board, color: Color, y: int, x: int, sq: Square)
    requires InBounds(y, x) && 0 <= y + Direction(color) < Rows
    requires sq in PawnMoves(b, color, y, x) && sq.1 != x
    ensures sq in PawnTakingMoves(color, y, x)
  {
  }

  // ------------------------------------------------- Knight and King steps

  /** The squares `offsets` lead to from (y, x), in order. */
  function Targets(y: int, x: int, offsets: seq<(int, int)>): (ts: seq<Square>)
    ensures |ts| == |offsets|
    ensures forall k :: 0 <= k < |offsets| ==> ts[k] == (y + offsets[k].0, x + offsets[k].1)
  {
    seq(|offsets|, k requires 0 <= k < |offsets| => (y + offsets[k].0, x + offsets[k].1))
  }

  /** A square a stepping piece of `color` may go to: on the board, not in
      `avoid`, and enterable. */
  predicate Admissible(b: Board, color: Color, avoid: set<Square>, sq: Square) {
    InBounds(sq.0, sq.1) && sq !in avoid && Enterable(b[sq.0][sq.1], color)
  }

  /** The admissible squares of `candidates`, in their original order. */
  function Keep(b: Board, color: Color, candidates: seq<Square>, avoid: set<Square>): (moves: seq<Square>)
    ensures forall sq :: sq in moves <==> sq in candidates && Admissible(b, color, avoid, sq)
    ensures Subsequence(moves, candidates)
  {
    if |candidates| == 0 then []
    else
      var rest := Keep(b, color, candidates[1..], avoid);
      if Admissible(b, color, avoid, candidates[0]) then
        assert ([candidates[0]] + rest)[1..] == rest;
        [candidates[0]] + rest
      else
        rest
  }

  const KnightJumps: seq<(int, int)> :=
    [(-2, -1), (-2, 1), (-1, -2), (-1, 2), (1, -2), (1, 2), (2, -1), (2, 1)]

  /** A knight's leap: two squares one way and one the other. */
  predicate IsKnightJump(y: int, x: int, sq: Square) {
    var dy, dx := sq.0 - y, sq.1 - x;
    || ((dy == 2 || dy == -2) && (dx == 1 || dx == -1))
    || ((dy == 1 || dy == -1) && (dx == 2 || dx == -2))
  }

  lemma KnightTargets(y: int, x: int, sq: Square)
    ensures sq in Targets(y, x, KnightJumps) <==> IsKnightJump(y, x, sq)
  {
    var ts := Targets(y, x, KnightJumps);
    if sq in ts {
      var k :| 0 <= k < |ts| && ts[k] == sq;
      assert sq == (y + KnightJumps[k].0, x + KnightJumps[k].1);
    }
    if IsKnightJump(y, x, sq) {
      var dy, dx := sq.0 - y, sq.1 - x;
      var k := if dy == -2 then (if dx == -1 then 0 else 1)
               else if dy == -1 then (if dx == -2 then 2 else 3)
               else if dy == 1 then (if dx == -2 then 4 else 5)
               else (if dx == -1 then 6 else 7);
      assert ts[k] == (y + KnightJumps[k].0, x + KnightJumps[k].1);
    }
  }

  /** `Knight.possibleMoves`: every on-board leap target that is enterable,
      in the order of the jump table. */
  function KnightMoves(b: Board, color: Color, y: int, x: int): (moves: seq<Square>)
    ensures forall sq :: sq in moves <==>
              IsKnightJump(y, x, sq) && InBounds(sq.0, sq.1) && Enterable(b[sq.0][sq.1], color)
    ensures Subsequence(moves, Targets(y, x, KnightJumps))
  {
    var moves := Keep(b, color, Targets(y, x, KnightJumps), {});
    forall sq ensures sq in moves <==> IsKnightJump(y, x, sq) && InBounds(sq.0, sq.1) && Enterable(b[sq.0][sq.1], color) {
      KnightTargets(y, x, sq);
    }
    moves
  }

  // ----------------------------------------------------- Sliding pieces

  predicate IsDirection(dy: int, dx: int) {
    -1 <= dy <= 1 && -1 <= dx <= 1 && (dy != 0 || dx != 0)
  }

  /** A unit step along a rank, file or diagonal. */
  type Heading = d: (int, int) | IsDirection(d.0, d.1) witness (1, 0)

  /** Squares left before a ray walking from (y, x) by (dy, dx) leaves the board. */
  function RayRoom(y: int, x: int, dy: int, dx: int): int {
    (if dy > 0 then Rows - y else if dy < 0 then y + 1 else 0)
    + (if dx > 0 then Columns - x else if dx < 0 then x + 1 else 0)
  }

  /** The cell at `sq` is on the board and empty. */
  predicate EmptyAt(b: Board, sq: Square) {
    InBounds(sq.0, sq.1) && CellIsEmpty(b[sq.0][sq.1])
  }

  /** The cell at `sq` is on the board and a piece of `color` may land on it. */
  predicate EnterableAt(b: Board, sq: Square, color: Color) {
    InBounds(sq.0, sq.1) && Enterable(b[sq.0][sq.1], color)
  }

  /** One ray of a sliding piece, starting at the probe square (y, x) and
      stepping by (dy, dx): the run of empty squares, then at most one
      capturable square; an own piece or any King ends it unemitted. */
  function Ray(b: Board, color: Color, y: int, x: int, dy: int, dx: int): (ray: seq<Square>)
    requires IsDirection(dy, dx)
    ensures forall k :: 0 <= k < |ray| ==> InBounds(ray[k].0, ray[k].1)
    decreases RayRoom(y, x, dy, dx)
  {
    if !InBounds(y, x) then []
    else if CellIsEmpty(b[y][x]) then
      [(y, x)] + Ray(b, color, y + dy, x + dx, dy, dx)
    else if Capturable(b[y][x], color) then [(y, x)]
    else []
  }

  /** The ray could not have gone further: its last square is a capture, or
      the square after it (the probe square, for an empty ray) is off the
      board or holds an own piece or a King. */
  predicate RayStops(b: Board, color: Color, y: int, x: int, dy: int, dx: int, ray: seq<Square>) {
    if |ray| == 0 then !EnterableAt(b, (y, x), color)
    else
      var last := ray[|ray| - 1];
      EmptyAt(b, last) ==> !EnterableAt(b, (last.0 + dy, last.1 + dx), color)
  }

  /** Each square of `line` is the one before it moved by (dy, dx). */
  predicate Contiguous(line: seq<Square>, dy: int, dx: int) {
    forall k :: 0 < k < |line| ==> line[k] == (line[k - 1].0 + dy, line[k - 1].1 + dx)
  }

  lemma ContiguousCons(sq: Square, line: seq<Square>, dy: int, dx: int)
    requires Contiguous(line, dy, dx)
    requires |line| > 0 ==> line[0] == (sq.0 + dy, sq.1 + dx)
    ensures Contiguous([sq] + line, dy, dx)
  {
    var s := [sq] + line;
    forall k | 0 < k < |s|
      ensures s[k] == (s[k - 1].0 + dy, s[k - 1].1 + dx)
    {
      assert s[k] == line[k - 1];
      if k > 1 {
        assert s[k - 1] == line[k - 2];
      }
    }
  }

  /** Every square of a ray but the last is empty; the last one may be
      entered. */
  lemma {:induction false} RayCells(b: Board, color: Color, y: int, x: int, dy: int, dx: int)
    requires IsDirection(dy, dx)
    ensures var ray := Ray(b, color, y, x, dy, dx);
            && (forall k :: 0 <= k < |ray| - 1 ==> EmptyAt(b, ray[k]))
            && (|ray| > 0 ==> EnterableAt(b, ray[|ray| - 1], color))
    decreases RayRoom(y, x, dy, dx)
  {
    var ray := Ray(b, color, y, x, dy, dx);
    if InBounds(y, x) && CellIsEmpty(b[y][x]) {
      var rest := Ray(b, color, y + dy, x + dx, dy, dx);
      RayCells(b, color, y + dy, x + dx, dy, dx);
      assert ray == [(y, x)] + rest;
      forall k | 0 <= k < |ray| - 1 ensures EmptyAt(b, ray[k]) {
        if k > 0 {
          assert ray[k] == rest[k - 1];
        }
      }
    }
  }

  /** A ray that emits anything starts at its probe square. */
  lemma RayStartsAtProbe(b: Board, color: Color, y: int, x: int, dy: int, dx: int)
    requires IsDirection(dy, dx)
    ensures var ray := Ray(b, color, y, x, dy, dx); |ray| > 0 ==> ray[0] == (y, x)
  {
  }

  /** A ray walks in a straight line. */
  lemma {:induction false} RayIsStraight(b: Board, color: Color, y: int, x: int, dy: int, dx: int)
    requires IsDirection(dy, dx)
    ensures Contiguous(Ray(b, color, y, x, dy, dx), dy, dx)
    decreases RayRoom(y, x, dy, dx)
  {
    var ray := Ray(b, color, y, x, dy, dx);
    if InBounds(y, x) && CellIsEmpty(b[y][x]) {
      var rest := Ray(b, color, y + dy, x + dx, dy, dx);
      RayIsStraight(b, color, y + dy, x + dx, dy, dx);
      RayStartsAtProbe(b, color, y + dy, x + dx, dy, dx);
      ContiguousCons((y, x), rest, dy, dx);
      assert ray == [(y, x)] + rest;
    } else {
      assert |ray| <= 1;
    }
  }

  /** A ray is maximal: it ends at a capture, at the edge of the board, or
      just before an own piece or a King. */
  lemma {:induction false} RayStopsAtFirstObstacle(b: Board, color: Color, y: int, x: int, dy: int, dx: int)
    requires IsDirection(dy, dx)
    ensures RayStops(b, color, y, x, dy, dx, Ray(b, color, y, x, dy, dx))
    decreases RayRoom(y, x, dy, dx)
  {
    var ray := Ray(b, color, y, x, dy, dx);
    if InBounds(y, x) && CellIsEmpty(b[y][x]) {
      var rest := Ray(b, color, y + dy, x + dx, dy, dx);
      RayStopsAtFirstObstacle(b, color, y + dy, x + dx, dy, dx);
      assert ray == [(y, x)] + rest;
      if |rest| > 0 {
        assert ray[|ray| - 1] == rest[|rest| - 1];
      }
    }
  }

  /** The rays of a sliding piece on (y, x), direction by direction. */
  function Slide(b: Board, color: Color, y: int, x: int, dirs: seq<Heading>): (moves: seq<Square>)
    ensures forall k :: 0 <= k < |moves| ==> EnterableAt(b, moves[k], color)
  {
    if |dirs| == 0 then []
    else
      var ray := Ray(b, color, y + dirs[0].0, x + dirs[0].1, dirs[0].0, dirs[0].1);
      RayCells(b, color, y + dirs[0].0, x + dirs[0].1, dirs[0].0, dirs[0].1);
      EnterableConcat(b, color, ray, Slide(b, color, y, x, dirs[1..]));
      ray + Slide(b, color, y, x, dirs[1..])
  }

  lemma {:induction false} SlideConcat(b: Board, color: Color, y: int, x: int, d1: seq<Heading>, d2: seq<Heading>)
    ensures Slide(b, color, y, x, d1 + d2) == Slide(b, color, y, x, d1) + Slide(b, color, y, x, d2)
  {
    if |d1| == 0 {
      assert d1 + d2 == d2;
    } else {
      var d := d1[0];
      var ray := Ray(b, color, y + d.0, x + d.1, d.0, d.1);
      assert (d1 + d2)[0] == d;
      assert (d1 + d2)[1..] == d1[1..] + d2;
      SlideConcat(b, color, y, x, d1[1..], d2);
    }
  }

  const BishopDirections: seq<Heading> := [(1, 1), (1, -1), (-1, 1), (-1, -1)]
  const RookDirections: seq<Heading> := [(1, 0), (-1, 0), (0, 1), (0, -1)]
  const QueenDirections: seq<Heading> :=
    [(1, 1), (1, -1), (-1, 1), (-1, -1), (1, 0), (-1, 0), (0, 1), (0, -1)]

  function BishopMoves(b: Board, color: Color, y: int, x: int): (moves: seq<Square>)
    ensures forall k :: 0 <= k < |moves| ==> EnterableAt(b, moves[k], color)
  {
    Slide(b, color, y, x, BishopDirections)
  }

  function RookMoves(b: Board, color: Color, y: int, x: int): (moves: seq<Square>)
    ensures forall k :: 0 <= k < |moves| ==> EnterableAt(b, moves[k], color)
  {
    Slide(b, color, y, x, RookDirections)
  }

  function QueenMoves(b: Board, color: Color, y: int, x: int): (moves: seq<Square>)
    ensures forall k :: 0 <= k < |moves| ==> EnterableAt(b, moves[k], color)
  {
    Slide(b, color, y, x, QueenDirections)
  }

  /** The queen moves like a bishop and then like a rook, in that order. */
  lemma QueenIsBishopThenRook(b: Board, color: Color, y: int, x: int)
    ensures QueenMoves(b, color, y, x) == BishopMoves(b, color, y, x) + RookMoves(b, color, y, x)
  {
    assert QueenDirections == BishopDirections + RookDirections;
    SlideConcat(b, color, y, x, BishopDirections, RookDirections);
  }

  /** `sq` lies on the half-line from (y, x) in the unit direction (dy, dx). */
  predicate Along(y: int, x: int, dy: int, dx: int, sq: Square) {
    && (if dy == 0 then sq.0 == y else if dy > 0 then sq.0 >= y else sq.0 <= y)
    && (if dx == 0 then sq.1 == x else if dx > 0 then sq.1 >= x else sq.1 <= x)
    && (dy != 0 && dx != 0 ==> if dy == dx then sq.0 - y == sq.1 - x else sq.0 - y == x - sq.1)
  }

  lemma {:induction false} RayIsAlong(b: Board, color: Color, y: int, x: int, dy: int, dx: int, sq: Square)
    requires IsDirection(dy, dx)
    requires sq in Ray(b, color, y, x, dy, dx)
    ensures Along(y, x, dy, dx, sq)
    decreases RayRoom(y, x, dy, dx)
  {
    if sq != (y, x) {
      RayIsAlong(b, color, y + dy, x + dx, dy, dx, sq);
    }
  }

  /** `sq` lies on the ray a slider on (y, x) casts along heading `d`. */
  predicate Beyond(y: int, x: int, d: Heading, sq: Square) {
    Along(y + d.0, x + d.1, d.0, d.1, sq)
  }

  /** Every square a sliding piece reaches lies beyond it along one of its
      headings. */
  lemma {:induction false} SlideIsAlong(b: Board, color: Color, y: int, x: int, dirs: seq<Heading>, sq: Square)
    requires sq in Slide(b, color, y, x, dirs)
    ensures exists k :: 0 <= k < |dirs| && Beyond(y, x, dirs[k], sq)
  {
    var d := dirs[0];
    var ray := Ray(b, color, y + d.0, x + d.1, d.0, d.1);
    var rest := Slide(b, color, y, x, dirs[1..]);
    assert Slide(b, color, y, x, dirs) == ray + rest;
    if sq in ray {
      RayIsAlong(b, color, y + d.0, x + d.1, d.0, d.1, sq);
      assert Beyond(y, x, dirs[0], sq);
    } else {
      SlideIsAlong(b, color, y, x, dirs[1..], sq);
      var k :| 0 <= k < |dirs[1..]| && Beyond(y, x, dirs[1..][k], sq);
      assert Beyond(y, x, dirs[k + 1], sq);
    }
  }

  predicate OnDiagonal(y: int, x: int, sq: Square) {
    sq != (y, x) && (sq.0 - y == sq.1 - x || sq.0 - y == x - sq.1)
  }

  predicate OnRankOrFile(y: int, x: int, sq: Square) {
    sq != (y, x) && (sq.0 == y || sq.1 == x)
  }

  lemma BishopMovesAreDiagonal(b: Board, color: Color, y: int, x: int, sq: Square)
    requires sq in BishopMoves(b, color, y, x)
    ensures OnDiagonal(y, x, sq)
  {
    SlideIsAlong(b, color, y, x, BishopDirections, sq);
  }

  lemma RookMovesAreStraight(b: Board, color: Color, y: int, x: int, sq: Square)
    requires sq in RookMoves(b, color, y, x)
    ensures OnRankOrFile(y, x, sq)
  {
    SlideIsAlong(b, color, y, x, RookDirections, sq);
  }

  lemma QueenMovesAreDiagonalOrStraight(b: Board, color: Color, y: int, x: int, sq: Square)
    requires sq in QueenMoves(b, color, y, x)
    ensures OnDiagonal(y, x, sq) || OnRankOrFile(y, x, sq)
  {
    QueenIsBishopThenRook(b, color, y, x);
    if sq in BishopMoves(b, color, y, x) {
      BishopMovesAreDiagonal(b, color, y, x, sq);
    } else {
      RookMovesAreStraight(b, color, y, x, sq);
    }
  }

  // ------------------------------------------------------ Enemy coverage

  /** Every piece on the board has had its position cached. */
  predicate PiecesPlaced(b: Board) {
    forall i, j :: 0 <= i < Rows && 0 <= j < Columns && b[i][j].Occupied? ==> b[i][j].piece.pos.At?
  }

  /** `takingMoves` of a placed piece other than a King: a pawn's two
      diagonals, otherwise its `possibleMoves`. */
  function Threats(b: Board, p: Piece): (threats: seq<Square>)
    requires p.kind != King && p.pos.At?
    ensures p.kind == Pawn ==> forall k :: 0 <= k < |threats| ==> threats[k].0 == p.pos.row + Direction(p.color)
    ensures p.kind != Pawn ==> forall k :: 0 <= k < |threats| ==> EnterableAt(b, threats[k], p.color)
  {
    var y, x := p.pos.row, p.pos.col;
    if p.kind == Pawn then PawnTakingMoves(p.color, y, x)
    else if p.kind == Knight then KnightMoves(b, p.color, y, x)
    else if p.kind == Bishop then BishopMoves(b, p.color, y, x)
    else if p.kind == Rook then RookMoves(b, p.color, y, x)
    else QueenMoves(b, p.color, y, x)
  }

  /** `sq` is the first threat of the enemy non-King piece on (i, j). */
  predicate FirstThreatOf(b: Board, color: Color, i: int, j: int, sq: Square)
    requires InBounds(i, j)
  {
    && Capturable(b[i][j], color) && b[i][j].piece.pos.At?
    && |Threats(b, b[i][j].piece)| > 0 && Threats(b, b[i][j].piece)[0] == sq
  }

  /** An 8x8 table with one optional square per cell. */
  predicate IsTable(t: seq<seq<Option<Square>>>) {
    |t| == Rows && forall i :: 0 <= i < Rows ==> |t[i]| == Columns
  }

  /** What each cell adds to the squares covered against `color`: the first
      threat of an enemy non-King piece, since `Set.add` keeps only the first
      argument of the spread list; nothing for any other cell. */
  function FirstThreats(b: Board, color: Color): (t: seq<seq<Option<Square>>>)
    ensures IsTable(t)
    ensures forall i, j, sq :: InBounds(i, j) ==> (t[i][j] == Some(sq) <==> FirstThreatOf(b, color, i, j, sq))
  {
    seq(Rows, i requires 0 <= i < Rows =>
      seq(Columns, j requires 0 <= j < Columns =>
        if Capturable(b[i][j], color) && b[i][j].piece.pos.At? && |Threats(b, b[i][j].piece)| > 0
        then Some(Threats(b, b[i][j].piece)[0])
        else None))
  }

  /** Some cell of row i of the table holds `sq`. */
  predicate RowHolds(t: seq<seq<Option<Square>>>, i: int, sq: Square)
    requires IsTable(t) && 0 <= i < Rows
  {
    exists j :: 0 <= j < Columns && t[i][j] == Some(sq)
  }

  /** The inner loop of the coverage scan: row i from column j on. */
  function ScanRow(t: seq<seq<Option<Square>>>, i: int, j: int): (cov: set<Square>)
    requires IsTable(t) && 0 <= i < Rows && 0 <= j <= Columns
    ensures forall sq :: sq in cov <==> exists jj :: j <= jj < Columns && t[i][jj] == Some(sq)
    decreases Columns - j
  {
    if j == Columns then {}
    else (if t[i][j].Some? then {t[i][j].value} else {}) + ScanRow(t, i, j + 1)
  }

  /** The outer loop of the coverage scan: rows i to 7. */
  function ScanRows(t: seq<seq<Option<Square>>>, i: int): (cov: set<Square>)
    requires IsTable(t) && 0 <= i <= Rows
    ensures forall sq :: sq in cov <==> exists ii :: i <= ii < Rows && RowHolds(t, ii, sq)
    decreases Rows - i
  {
    if i == Rows then {}
    else
      var row := ScanRow(t, i, 0);
      assert forall sq :: sq in row <==> RowHolds(t, i, sq);
      row + ScanRows(t, i + 1)
  }

  /** `getPositionsCoveredByEnemyPieces`: the squares the pieces opposing
      `color` are taken to cover: every square the table of first threats
      holds, and nothing else. */
  function Covered(b: Board, color: Color): (cov: set<Square>)
    requires PiecesPlaced(b)
    ensures forall sq :: sq in cov <==> exists i, j :: InBounds(i, j) && FirstThreats(b, color)[i][j] == Some(sq)
  {
    var t := FirstThreats(b, color);
    var cov := ScanRows(t, 0);
    assert forall sq :: sq in cov <==> exists i, j :: InBounds(i, j) && t[i][j] == Some(sq) by {
      forall sq ensures sq in cov <==> exists i, j :: InBounds(i, j) && t[i][j] == Some(sq) {
        if sq in cov {
          var i :| 0 <= i < Rows && RowHolds(t, i, sq);
          var j :| 0 <= j < Columns && t[i][j] == Some(sq);
        }
        if exists i, j :: InBounds(i, j) && t[i][j] == Some(sq) {
          var i, j :| InBounds(i, j) && t[i][j] == Some(sq);
          assert RowHolds(t, i, sq);
        }
      }
    }
    cov
  }

  /** A square is covered exactly when it is the first threat of some enemy
      non-King piece. */
  lemma CoveredIsFirstThreats(b: Board, color: Color, sq: Square)
    requires PiecesPlaced(b)
    ensures sq in Covered(b, color) <==> exists i, j :: InBounds(i, j) && FirstThreatOf(b, color, i, j, sq)
  {
    var t := FirstThreats(b, color);
    if sq in Covered(b, color) {
      var i, j :| InBounds(i, j) && t[i][j] == Some(sq);
      assert FirstThreatOf(b, color, i, j, sq);
    }
    if exists i, j :: InBounds(i, j) && FirstThreatOf(b, color, i, j, sq) {
      var i, j :| InBounds(i, j) && FirstThreatOf(b, color, i, j, sq);
      assert t[i][j] == Some(sq);
    }
  }

  /** The spread into `Set.add` loses threats: with a single enemy non-King
      piece on the board, its second threat is not covered unless it equals
      the first. */
  lemma SecondThreatIsMissed(b: Board, color: Color, i: int, j: int)
    requires PiecesPlaced(b) && InBounds(i, j) && Capturable(b[i][j], color)
    requires forall ii, jj :: InBounds(ii, jj) && Capturable(b[ii][jj], color) ==> ii == i && jj == j
    requires |Threats(b, b[i][j].piece)| >= 2
    requires Threats(b, b[i][j].piece)[1] != Threats(b, b[i][j].piece)[0]
    ensures Threats(b, b[i][j].piece)[1] !in Covered(b, color)
  {
    CoveredIsFirstThreats(b, color, Threats(b, b[i][j].piece)[1]);
  }

  /** A pawn's threats are its two diagonals, whatever the board holds. */
  lemma PawnThreats(b: Board, p: Piece)
    requires p.kind == Pawn && p.pos.At?
    ensures Threats(b, p) == PawnTakingMoves(p.color, p.pos.row, p.pos.col)
  {
  }

  /** The smallest case of the loss: a lone enemy pawn off the a-file covers
      the diagonal ahead on its left but not the one on its right. */
  lemma PawnRightThreatIsMissed(b: Board, color: Color, i: int, j: int)
    requires PiecesPlaced(b) && InBounds(i, j) && 1 <= j
    requires HoldsKind(b[i][j], Other(color), Pawn) && b[i][j].piece.pos == At(i, j)
    requires forall ii, jj :: InBounds(ii, jj) && Capturable(b[ii][jj], color) ==> ii == i && jj == j
    ensures (i + Direction(Other(color)), j - 1) in Covered(b, color)
    ensures (i + Direction(Other(color)), j + 1) !in Covered(b, color)
  {
    var ahead := i + Direction(Other(color));
    var p := b[i][j].piece;
    PawnThreats(b, p);
    var threats := PawnTakingMoves(Other(color), i, j);
    assert threats == [(ahead, j - 1), (ahead, j + 1)];
    CoveredIsFirstThreats(b, color, (ahead, j - 1));
    assert FirstThreatOf(b, color, i, j, (ahead, j - 1));
    CoveredIsFirstThreats(b, color, (ahead, j + 1));
    forall ii, jj | InBounds(ii, jj) ensures !FirstThreatOf(b, color, ii, jj, (ahead, j + 1)) {
      if Capturable(b[ii][jj], color) {
        assert ii == i && jj == j;
      }
    }
  }

  /** Friendly pieces and Kings add nothing to the coverage. */
  lemma NoEnemiesNoCoverage(b: Board, color: Color)
    requires PiecesPlaced(b)
    requires forall i, j :: InBounds(i, j) ==> !Capturable(b[i][j], color)
    ensures Covered(b, color) == {}
  {
    forall sq ensures sq !in Covered(b, color) {
      CoveredIsFirstThreats(b, color, sq);
    }
  }

  // ---------------------------------------------------------------- King

  const KingSteps: seq<(int, int)> :=
    [(-1, -1), (-1, 0), (-1, 1), (0, -1), (0, 1), (1, -1), (1, 0), (1, 1)]

  predicate IsNeighbour(y: int, x: int, sq: Square) {
    sq != (y, x) && -1 <= sq.0 - y <= 1 && -1 <= sq.1 - x <= 1
  }

  lemma KingStepTargets(y: int, x: int, sq: Square)
    ensures sq in Targets(y, x, KingSteps) <==> IsNeighbour(y, x, sq)
  {
    var ts := Targets(y, x, KingSteps);
    if sq in ts {
      var k :| 0 <= k < |ts| && ts[k] == sq;
      assert sq == (y + KingSteps[k].0, x + KingSteps[k].1);
    }
    if IsNeighbour(y, x, sq) {
      var dy, dx := sq.0 - y, sq.1 - x;
      var k := if dy == -1 then dx + 1 else if dy == 0 then (if dx == -1 then 3 else 4) else dx + 6;
      assert ts[k] == (y + KingSteps[k].0, x + KingSteps[k].1);
    }
  }

  /** The King's ordinary moves: every on-board neighbour, in the order of
      the step table, that is not covered and is enterable. */
  function KingStepMoves(b: Board, color: Color, y: int, x: int): (moves: seq<Square>)
    requires PiecesPlaced(b)
    ensures forall sq :: sq in moves <==>
              IsNeighbour(y, x, sq) && InBounds(sq.0, sq.1) && sq !in Covered(b, color)
              && Enterable(b[sq.0][sq.1], color)
    ensures Subsequence(moves, Targets(y, x, KingSteps))
    ensures forall k :: 0 <= k < |moves| ==> EnterableAt(b, moves[k], color)
  {
    var moves := Keep(b, color, Targets(y, x, KingSteps), Covered(b, color));
    forall sq ensures sq in moves <==>
        IsNeighbour(y, x, sq) && InBounds(sq.0, sq.1) && sq !in Covered(b, color) && Enterable(b[sq.0][sq.1], color) {
      KingStepTargets(y, x, sq);
    }
    forall k | 0 <= k < |moves| ensures EnterableAt(b, moves[k], color) {
      assert moves[k] in moves;
    }
    moves
  }

  /** The castling pseudo-moves of a King of `color` on (y, x): queenside
      first, then kingside. The squares between King and Rook must be `null`
      (not merely empty), and whether they are attacked is not looked at. */
  function CastlingMoves(g: Game, color: Color, y: int, x: int): (moves: seq<Square>)
    ensures forall sq :: sq in moves ==> sq == (HomeRow(color), 2) || sq == (HomeRow(color), 6)
    ensures |moves| > 0 ==> y == HomeRow(color) && x == 4 && !KingMoved(g, color)
    ensures (HomeRow(color), 2) in moves <==>
              && y == HomeRow(color) && x == 4 && !KingMoved(g, color)
              && HoldsKind(g.board[HomeRow(color)][0], color, Rook)
              && g.board[HomeRow(color)][1] == Null
              && g.board[HomeRow(color)][2] == Null
              && g.board[HomeRow(color)][3] == Null
    ensures (HomeRow(color), 6) in moves <==>
              && y == HomeRow(color) && x == 4 && !KingMoved(g, color)
              && HoldsKind(g.board[HomeRow(color)][7], color, Rook)
              && g.board[HomeRow(color)][5] == Null
              && g.board[HomeRow(color)][6] == Null
    ensures |moves| == 2 ==> moves == [(HomeRow(color), 2), (HomeRow(color), 6)]
    ensures forall k :: 0 <= k < |moves| ==> EnterableAt(g.board, moves[k], color)
  {
    var h := HomeRow(color);
    var row := g.board[h];
    if y == h && x == 4 && !KingMoved(g, color) then
      (if HoldsKind(row[0], color, Rook) && row[1] == Null && row[2] == Null && row[3] == Null
       then [(h, 2)] else [])
      + (if HoldsKind(row[7], color, Rook) && row[5] == Null && row[6] == Null
         then [(h, 6)] else [])
    else []
  }

  /** Neither back rank holds an `undefined` cell. */
  predicate BackRanksDefined(b: Board) {
    forall j :: 0 <= j < Columns ==> b[0][j] != Undef && b[7][j] != Undef
  }

  /** On back ranks without `undefined` cells the strict `null` test of
      castling is the same as the general emptiness test. */
  lemma CastlingTestsEmptiness(g: Game, color: Color, j: int)
    requires BackRanksDefined(g.board) && 0 <= j < Columns
    ensures g.board[HomeRow(color)][j] == Null <==> CellIsEmpty(g.board[HomeRow(color)][j])
  {
  }

  /** A square never written on a back rank blocks castling even though it
      is empty. */
  lemma UndefinedSquareBlocksCastling(g: Game, color: Color, j: int)
    requires 1 <= j <= 3 && g.board[HomeRow(color)][j] == Undef
    ensures (HomeRow(color), 2) !in CastlingMoves(g, color, HomeRow(color), 4)
    ensures CellIsEmpty(g.board[HomeRow(color)][j])
  {
  }

  lemma EnterableConcat(b: Board, color: Color, s1: seq<Square>, s2: seq<Square>)
    requires forall k :: 0 <= k < |s1| ==> EnterableAt(b, s1[k], color)
    requires forall k :: 0 <= k < |s2| ==> EnterableAt(b, s2[k], color)
    ensures forall k :: 0 <= k < |s1 + s2| ==> EnterableAt(b, (s1 + s2)[k], color)
  {
  }

  lemma AppendKeepsLeft<T>(a: seq<T>, b: seq<T>)
    ensures forall v :: v in a ==> v in a + b
    ensures (a + b)[..|a|] == a
  {
    forall v | v in a ensures v in a + b {
      var k :| 0 <= k < |a| && a[k] == v;
      assert (a + b)[k] == v;
    }
  }

  lemma AppendKeepsRight<T>(a: seq<T>, b: seq<T>)
    ensures forall v :: v in b ==> v in a + b
  {
    forall v | v in b ensures v in a + b {
      var k :| 0 <= k < |b| && b[k] == v;
      assert (a + b)[|a| + k] == v;
    }
  }

  /** `King.possibleMoves`: the ordinary moves followed by castling. */
  function KingMoves(g: Game, color: Color, y: int, x: int): (moves: seq<Square>)
    requires PiecesPlaced(g.board)
    ensures forall k :: 0 <= k < |moves| ==> EnterableAt(g.board, moves[k], color)
    ensures forall sq :: sq in CastlingMoves(g, color, y, x) ==> sq in moves
    ensures forall sq :: sq in moves ==>
              (IsNeighbour(y, x, sq) && sq !in Covered(g.board, color)) || sq in CastlingMoves(g, color, y, x)
    ensures forall sq :: sq in KingStepMoves(g.board, color, y, x) ==> sq in moves
    ensures |KingStepMoves(g.board, color, y, x)| <= |moves|
    ensures moves[..|KingStepMoves(g.board, color, y, x)|] == KingStepMoves(g.board, color, y, x)
  {
    var steps := KingStepMoves(g.board, color, y, x);
    var castles := CastlingMoves(g, color, y, x);
    EnterableConcat(g.board, color, steps, castles);
    AppendKeepsLeft(steps, castles);
    AppendKeepsRight(steps, castles);
    steps + castles
  }

  /** Castling is offered whatever the enemy covers, the King's own square
      and the squares it crosses included. */
  lemma CastlingIgnoresCoverage(g: Game, color: Color)
    requires PiecesPlaced(g.board) && !KingMoved(g, color)
    requires HoldsKind(g.board[HomeRow(color)][0], color, Rook)
    requires g.board[HomeRow(color)][1] == Null && g.board[HomeRow(color)][2] == Null && g.board[HomeRow(color)][3] == Null
    ensures (HomeRow(color), 2) in KingMoves(g, color, HomeRow(color), 4)
  {
    assert (HomeRow(color), 2) in CastlingMoves(g, color, HomeRow(color), 4);
  }

  // ------------------------------------------------------------ Dispatch

  /** What the program needs to generate a piece's moves without indexing a
      missing row: a cached position, a pawn on the board with a row ahead,
      and every piece placed when a King asks for the coverage. */
  predicate CanMove(b: Board, p: Piece) {
    && p.pos.At?
    && (p.kind == Pawn ==> InBounds(p.pos.row, p.pos.col) && 0 <= p.pos.row + Direction(p.color) < Rows)
    && (p.kind == King ==> PiecesPlaced(b))
  }

  /** `possibleMoves`, dispatched on the piece kind. No move ever lands off
      the board, on a piece of the mover's colour, or on a King. */
  function PossibleMoves(g: Game, p: Piece): (moves: seq<Square>)
    requires CanMove(g.board, p)
    ensures forall k :: 0 <= k < |moves| ==> EnterableAt(g.board, moves[k], p.color)
  {
    var b, y, x := g.board, p.pos.row, p.pos.col;
    if p.kind == Pawn then
      var m := PawnMoves(b, p.color, y, x);
      assert forall k :: 0 <= k < |m| ==> EnterableAt(b, m[k], p.color) by {
        forall k | 0 <= k < |m| ensures EnterableAt(b, m[k], p.color) {
          assert m[k] in m;
        }
      }
      m
    else if p.kind == Knight then
      var m := KnightMoves(b, p.color, y, x);
      assert forall k :: 0 <= k < |m| ==> EnterableAt(b, m[k], p.color) by {
        forall k | 0 <= k < |m| ensures EnterableAt(b, m[k], p.color) {
          assert m[k] in m;
        }
      }
      m
    else if p.kind == Bishop then BishopMoves(b, p.color, y, x)
    else if p.kind == Rook then RookMoves(b, p.color, y, x)
    else if p.kind == Queen then QueenMoves(b, p.color, y, x)
    else KingMoves(g, p.color, y, x)
  }

  /** `takingMoves`: a pawn's diagonals; for every other piece the inherited
      default, its `possibleMoves`. */
  function TakingMoves(g: Game, p: Piece): (threats: seq<Square>)
    requires p.pos.At? && (p.kind == King ==> PiecesPlaced(g.board))
    ensures p.kind != Pawn ==> forall k :: 0 <= k < |threats| ==> EnterableAt(g.board, threats[k], p.color)
  {
    if p.kind == Pawn then PawnTakingMoves(p.color, p.pos.row, p.pos.col)
    else PossibleMoves(g, p)
  }

  /** The coverage scan uses exactly the pieces' `takingMoves`. */
  lemma ThreatsAreTakingMoves(g: Game, p: Piece)
    requires p.kind != King && p.pos.At?
    ensures Threats(g.board, p) == TakingMoves(g, p)
  {
  }

  /** Apart from the pawn, `takingMoves` is `possibleMoves`. */
  lemma TakingMovesDefault(g: Game, p: Piece)
    requires p.kind != Pawn && CanMove(g.board, p)
    ensures TakingMoves(g, p) == PossibleMoves(g, p)
  {
  }
}

=== FILE: utils.dfy ===
/** Board utilities: algebraic cell codes, the emptiness test and move-list
    membership. */
module Utils {
  import opened ChessTypes

  const Letters: string := "abcdefgh"

  /** The decimal digit character for 0..9. */
  function Digit(n: int): (ch: char)
    requires 0 <= n <= 9
    ensures '0' <= ch <= '9' && ch as int - '0' as int == n
  {
    ('0' as int + n) as char
  }

  /** `getCellCode`: the file letter of the column followed by the rank
      number `8 - row`, e.g. "e1" for the white king's square. */
  function CellCode(row: int, col: int): (code: string)
    requires InBounds(row, col)
    ensures |code| == 2
    ensures 'a' <= code[0] <= 'h' && code[0] as int - 'a' as int == col
    ensures '1' <= code[1] <= '8' && code[1] as int - '0' as int == Rows - row
  {
    [Letters[col], Digit(Rows - row)]
  }

  /** Reads a cell code back into its square; the inverse of `CellCode`. */
  function ParseCellCode(code: string): (sq: Option<Square>)
    ensures sq.Some? ==> InBounds(sq.value.0, sq.value.1)
  {
    if |code| == 2 && 'a' <= code[0] <= 'h' && '1' <= code[1] <= '8' then
      Some((Rows - (code[1] as int - '0' as int), code[0] as int - 'a' as int))
    else
      None
  }

  lemma CellCodeRoundTrip(row: int, col: int)
    requires InBounds(row, col)
    ensures ParseCellCode(CellCode(row, col)) == Some((row, col))
  {
  }

  lemma ParseCellCodeRoundTrip(code: string)
    requires ParseCellCode(code).Some?
    ensures CellCode(ParseCellCode(code).value.0, ParseCellCode(code).value.1) == code
  {
    var sq := ParseCellCode(code).value;
    var c := CellCode(sq.0, sq.1);
    assert c[0] == code[0] && c[1] == code[1];
  }

  /** Distinct squares get distinct codes. */
  lemma CellCodeInjective(r1: int, c1: int, r2: int, c2: int)
    requires InBounds(r1, c1) && InBounds(r2, c2)
    requires CellCode(r1, c1) == CellCode(r2, c2)
    ensures r1 == r2 && c1 == c2
  {
    CellCodeRoundTrip(r1, c1);
    CellCodeRoundTrip(r2, c2);
  }

  lemma CellCodeCorners()
    ensures CellCode(7, 4) == "e1"
    ensures CellCode(0, 0) == "a8"
    ensures CellCode(7, 0) == "a1"
    ensures CellCode(0, 7) == "h8"
  {
  }

  /** `cellIsEmpty`: both `null` and `undefined` count as empty. */
  function CellIsEmpty(c: Cell): (empty: bool)
    ensures empty <==> !c.Occupied?
  {
    c == Null || c == Undef
  }

  /** `positionIsInPossibleMoves`: a linear scan comparing both coordinates. */
  method PositionIsInPossibleMoves(position: Square, moves: seq<Square>) returns (found: bool)
    ensures found <==> position in moves
    ensures |moves| == 0 ==> !found
  {
    var i := 0;
    while i < |moves|
      invariant 0 <= i <= |moves|
      invariant forall k :: 0 <= k < i ==> moves[k] != position
    {
      if position.0 == moves[i].0 && position.1 == moves[i].1 {
        return true;
      }
      i := i + 1;
    }
    return false;
  }

  /** Membership survives appending further moves. */
  lemma PossibleMovesMonotone(position: Square, moves: seq<Square>, more: seq<Square>)
    requires position in moves
    ensures position in moves + more
  {
    var k :| 0 <= k < |moves| && moves[k] == position;
    assert (moves + more)[k] == position;
  }
}
